=== FILE: README.md ===
# Rewear exchange core in Dafny

Rewear is a clothing-exchange web app. Members list garments. An administrator moderates each listing before it appears in the catalog. Other members then either request a swap or redeem the item with points, and every new member starts with 100 points. The app has no separate rules engine. The exchange rules live in React event handlers that call Firestore directly.

This project lifts those rules into pure functions over an in-memory store. The store holds three collections:

- `users`: free-form Firestore documents, modelled as `map<string, Value>`, so object spreads and JavaScript truthiness are exact;
- `items`: typed `Item` records;
- `swaps`: typed `SwapRecord` records, in insertion order.

Each handler takes the store and the viewer it acts for. It returns the new store and an outcome, either `Ok` or `Err(reason)`.

Modules follow the source files:

| module | file | what it holds |
|---|---|---|
| `Wrappers`, `Docs`, `Seqs`, `Text` | (shared) | `Option`; Firestore documents and `increment`; filter, count and sorting by a comparator; JavaScript string helpers (`trim`, `split`, `toLowerCase`, `includes`) |
| `Numbers` | (shared) | the browser's reading of a `type="number"` field, and JavaScript's `parseInt` |
| `Model` | (shared) | the store; the invariant "an available item is approved"; frame predicates |
| `Auth` | `src/context/AuthContext.jsx` | the session, signup, login, Google sign-in, logout |
| `AdminPanel` | `src/pages/AdminPanel.jsx` | approve, reject, delete, toggle admin, panel stats |
| `ItemDetail` | `src/pages/ItemDetailPage.jsx` | swap request, points redemption, button gating |
| `AddItem` | `src/pages/AddItemPage.jsx` | image picker, form validation, tag parsing, item submission |
| `Browse` | `src/pages/BrowseItemsPage.jsx` | catalog query, filters, sort orders, clear filters |
| `Dashboard` | `src/pages/Dashboard.jsx` | the member's items and swaps, newest first; stat counters, first-three previews, "N more" notes |
| `ProductCard` | `src/components/ProductCard.jsx` | the "New" badge |

Every handler that writes to `items` is proved to preserve the invariant `Model.AvailableImpliesApproved`. The handlers that write to `items` are approve, reject, delete, submit and redeem.

### What the code does not check

The model follows the code, including the checks it leaves out:

- **Approval has no status check.** `handleApproveItem` does not check that the item is pending. Only the panel's pending tab limits it, and that tab shows the lists `fetchAdminData` loaded last, which can be stale. `AdminPanel.ApproveItem` accepts any existing item. `AdminPanel.Perform` takes the last-fetched lists (`AdminPanel.Panel`) as an input and offers only the controls they show. `AdminPanel.StalePendingApproves` shows an item rejected by another session after the fetch being approved from the stale pending tab.
- **A banned Google user is told the sign-in succeeded.** `initializeUser` signs a banned profile out again, but `googleSignIn` goes on to report success. `Auth.GoogleSignIn` ends with outcome `Ok` and the session signed out.
- **Redemption is not atomic.** It is four separate writes, with no transaction and no rollback. `ItemDetail.RedeemWithPoints` and `ItemDetail.RedeemWrites` state what survives when a later write fails.
- **Redemption trusts cached data.** It checks the balance cached in the session rather than the stored one. It does not check that the item is still available. See `ItemDetail.StaleBalanceCanOverdraw` and `ItemDetail.RedeemIgnoresAvailability`.
- **Points are stored as `parseInt` reads them.** The browser accepts the points field when its text is a valid floating-point number that is whole and from 10 to 200. The handler then stores `parseInt` of the same text. For "1e2" the browser sees 100 and `parseInt` gives 1, so the item costs 1 point (`AddItem.ExponentPointsStoredAsOne`). For ".1e3" `parseInt` finds no digit at all (`AddItem.PointlessPointsRefused`). For plain digits the two readings agree (`AddItem.PlainPointsInRange`).
- **Swap requests are never resolved.** No code accepts or rejects a swap request, so a request stays `pending` forever.

## Model

| member | source | states |
|---|---|---|
| Docs.NumberField | src/pages/ItemDetailPage.jsx:100 | a document field read as a number is present exactly when the field holds a number, and it is that number |
| Docs.Increment | src/pages/ItemDetailPage.jsx:109-116 | Firestore `increment` adds the operand to a numeric field; a missing or non-numeric field becomes the operand; no other field changes |
| Seqs.Filter | src/pages/AdminPanel.jsx:78 | `Array.filter` keeps exactly the elements satisfying the predicate, each as often as in the input; the order it keeps is stated by `Seqs.FilterAppend` |
| Seqs.Count | src/pages/Dashboard.jsx:72 | `filter(p).length` is the number of kept elements, and is zero iff no element satisfies `p` |
| Seqs.CountDisjoint | src/pages/Dashboard.jsx:72-79 | counts of two mutually exclusive predicates add up to at most the length of the list |
| Seqs.FilterAppend | src/pages/Dashboard.jsx:33-37 | filtering a concatenation is the filtered first part followed by the filtered second part, so filtering keeps the input order |
| Seqs.CountAppend | src/pages/Dashboard.jsx:72-79 | the count over a concatenation is the sum of the counts |
| Seqs.CountPermutation | src/pages/Dashboard.jsx:72-79 | counts do not depend on the order the query returns, only on which records occur how often |
| Seqs.Insert | src/pages/BrowseItemsPage.jsx:75-93 | inserting into an ordered list gives an ordered list with exactly that one element added |
| Seqs.Sort | src/pages/BrowseItemsPage.jsx:75-93 | sorting by a total, transitive comparator returns an ordered permutation of its input |
| Text.TrimStart | src/pages/AddItemPage.jsx:116 | drops exactly the leading ECMAScript white space |
| Text.TrimEnd | src/pages/AddItemPage.jsx:116 | drops exactly the trailing ECMAScript white space |
| Text.LeadingSpaces | src/pages/AddItemPage.jsx:116 | the length of the leading white-space run: every character before it is white space and the next one is not |
| Text.Trim | src/pages/AddItemPage.jsx:116 | `trim()` returns the contiguous slice of the input with white space only around it and no white space at either end |
| Text.TrimAvoids | src/pages/AddItemPage.jsx:116 | `trim()` only removes characters, so a character absent from the input is absent from the result |
| Text.Split | src/pages/AddItemPage.jsx:116 | `split(",")` returns at least one piece and no piece contains the separator |
| Text.JoinSplit | src/pages/AddItemPage.jsx:116 | joining the pieces of `split` with the separator gives back the input |
| Text.SplitConcat | src/pages/AddItemPage.jsx:116 | splitting `a + sep + b` gives the pieces of `a` followed by the pieces of `b` |
| Text.SplitNoSeparator | src/pages/AddItemPage.jsx:116 | a string without the separator splits into itself alone |
| Text.Lower | src/pages/BrowseItemsPage.jsx:58-60 | `toLowerCase` keeps the length and maps every upper-case ASCII letter to its lower-case form, leaving other characters as they are |
| Text.ContainsAt | src/pages/BrowseItemsPage.jsx:58-60 | `includes` holds iff the needle occurs at some position of the haystack |
| Text.ContainsHasPosition | src/pages/BrowseItemsPage.jsx:58-60 | when `includes` holds, the needle occurs at some position of the haystack |
| Text.PositionGivesContains | src/pages/BrowseItemsPage.jsx:58-60 | an occurrence of the needle at any position makes `includes` hold |
| Text.LexLeqTotal | src/pages/BrowseItemsPage.jsx:89 | the title order compares any two strings |
| Text.LexLeqTrans | src/pages/BrowseItemsPage.jsx:89 | the title order is transitive |
| Auth.SessionDoc | src/context/AuthContext.jsx:38-42 | the session object `{uid, email, ...profile}` holds every profile field, with `uid` and `email` from the sign-in only where the profile has none |
| Auth.InitializeUser | src/context/AuthContext.jsx:20-61 | a session is signed in exactly when a signed-in user has a profile that is not banned; it then holds exactly `{uid, email, ...profile}` (`SessionDoc`), so every field of the profile; otherwise it is empty; the two session variables always agree |
| Auth.SignupProfile | src/context/AuthContext.jsx:63-75 | a signup profile has exactly the submitted fields less the password, plus email, 100 points, `isAdmin` false and the creation time; the fixed fields override submitted ones |
| Auth.Signup | src/context/AuthContext.jsx:63-90 | a failed account creation changes nothing; otherwise exactly the signup profile is stored under the new uid, no other profile changes, and the session is signed in and holds that stored profile with the uid and email |
| Auth.Login | src/context/AuthContext.jsx:92-125 | login never writes profiles; it succeeds iff it ends signed in; a banned or missing profile fails and leaves no signed-in session |
| Auth.GoogleProfile | src/context/AuthContext.jsx:138-145 | a Google profile has exactly email, name (defaulting to ""), 100 points, `isAdmin` false, creation time and avatar, and is not banned |
| Auth.GoogleSignIn | src/context/AuthContext.jsx:128-158 | an existing profile is left untouched; a missing one is created as exactly `GoogleProfile` (100 points, no admin flag, name and avatar defaulting to "", the account's email), and the user ends signed in; the session is what `initializeUser` gives for the resulting profiles; once the popup returns a user the outcome is always success, even for a banned stored profile, whose session ends signed out |
| Auth.Logout | src/context/AuthContext.jsx:160-173 | logout always ends with no user and not logged in; a failing sign-out is caught and clears the same state |
| Auth.ViewerOf | src/context/AuthContext.jsx:38-44 | the exchange pages act for the session's uid, its cached points and its admin flag, and only while logged in |
| Auth.SessionsConsistent | src/context/AuthContext.jsx:31-58 | after every auth operation `userLoggedIn` holds iff `currentUser` is set |
| Auth.SignedInViewer | src/context/AuthContext.jsx:22-44 | signing in a user with a profile yields a viewer iff the profile is not banned, with that profile's points and admin flag |
| Auth.SignupViewer | src/context/AuthContext.jsx:63-83 | a fresh signup acts for the new uid with 100 points and without admin rights |
| AdminPanel.ApproveItem | src/pages/AdminPanel.jsx:89-96 | approving a missing item fails and changes nothing; otherwise that item alone gets status "approved", available true and the approving admin and time, with the listing kept; users and swaps are unchanged; the prior status is not checked |
| AdminPanel.RejectItem | src/pages/AdminPanel.jsx:106-113 | rejecting sets status "rejected", available false and the rejecting admin and time on that item only; nothing else changes |
| AdminPanel.DeleteItem | src/pages/AdminPanel.jsx:123-129 | a declined confirmation changes nothing; a confirmed delete removes exactly that id, succeeding even for a missing id |
| AdminPanel.ToggleUserAdmin | src/pages/AdminPanel.jsx:138-142 | the target's `isAdmin` becomes the negation of the flag shown; no other field of that user and no other user changes; a missing user fails |
| AdminPanel.Fetch | src/pages/AdminPanel.jsx:37-71 | the fetched pending list is exactly the items with status "pending", the item list is every item, and the user rows are every user, each showing that user's admin flag |
| AdminPanel.Perform | src/pages/AdminPanel.jsx:152-421 | a viewer without the admin flag is denied and nothing changes; an admin's own row never toggles; a control the last-fetched lists do not show is refused with no change; an admin's shown approve, reject, delete or toggle runs that handler on the current store, the toggle passing the flag its row shows; it succeeds exactly when the target still exists (approve, reject, toggle) or the delete is confirmed; every change comes from an admin using a shown control; swaps are never touched |
| AdminPanel.FreshPanelOffers | src/pages/AdminPanel.jsx:31-71 | on freshly fetched lists, approve and reject are shown exactly for pending items, delete for every item, and a toggle for every other user, carrying the stored flag |
| AdminPanel.StalePendingApproves | src/pages/AdminPanel.jsx:89-99 | an item another session rejects after the panel fetched it as pending is still approved, and made available, by the stale Approve control |
| AdminPanel.ToggleFlips | src/pages/AdminPanel.jsx:419-421 | toggling another user's row from freshly fetched lists succeeds, flips that user's admin flag and changes no other user |
| AdminPanel.ToggleTwice | src/pages/AdminPanel.jsx:138-145 | toggling the same row twice, with the lists fetched again in between, gives the user back their admin flag, stored as a boolean, and changes nothing else |
| AdminPanel.StaleToggleRepeats | src/pages/AdminPanel.jsx:138-145 | toggling the same row twice before the lists are fetched again writes the same flag twice, so the second click changes nothing |
| AdminPanel.ModerationIdempotent | src/pages/AdminPanel.jsx:89-113 | approving or rejecting twice with the same admin and time equals doing it once |
| AdminPanel.ComputeStats | src/pages/AdminPanel.jsx:74-79 | the panel stats are the user count, the item count, and the counts with status "pending" and "approved", and pending plus approved is at most the item count |
| ItemDetail.Balance | src/pages/ItemDetailPage.jsx:109-116 | a stored balance exists only for an existing user whose `points` field is that number |
| ItemDetail.RequestSwap | src/pages/ItemDetailPage.jsx:48-86 | a signed-out viewer or the uploader is refused with no change; otherwise exactly one pending swap record for the item, with both participants, is appended and nothing else changes |
| ItemDetail.RedeemWithPoints | src/pages/ItemDetailPage.jsx:88-150 | refusals for signed-out viewers, the uploader, and a cached balance below the price change nothing; success debits the buyer and credits the owner by the price, marks the item unavailable and redeemed by the buyer, and appends one completed redemption record; a missing buyer profile changes nothing; a missing owner profile keeps the buyer's debit alone; a missing item keeps both balance writes, with items and swaps unchanged |
| ItemDetail.RedeemWrites | src/pages/ItemDetailPage.jsx:107-150 | once the guards pass, the redemption succeeds iff buyer, owner and item documents all exist; each missing document stops the writes there, keeping the earlier ones: no buyer changes nothing, no owner keeps the debit alone, no item keeps both balance moves |
| ItemDetail.MarkRedeemed | src/pages/ItemDetailPage.jsx:119-140 | the item alone changes, to unavailable and redeemed by the buyer at the given time, with its listing, approval and status kept; one completed redemption record naming buyer, owner, item and price is appended; profiles are untouched |
| ItemDetail.RedeemConservesPoints | src/pages/ItemDetailPage.jsx:109-116 | a successful redemption leaves the sum of the buyer's and the owner's balances unchanged |
| ItemDetail.FreshBalanceNeverOverdraws | src/pages/ItemDetailPage.jsx:100-111 | when the cached balance equals the stored one, a successful redemption leaves the buyer's balance non-negative |
| ItemDetail.StaleBalanceCanOverdraw | src/pages/ItemDetailPage.jsx:100-111 | a stale cached balance lets a redemption drive the stored balance negative |
| ItemDetail.RedeemIgnoresAvailability | src/pages/ItemDetailPage.jsx:88-150 | the redemption handler looks at neither the item's availability nor its status |
| ItemDetail.SwapRequestIgnoresAvailability | src/pages/ItemDetailPage.jsx:48-86 | the swap-request handler looks at neither the item's availability nor its status |
| ItemDetail.ShortfallNote | src/pages/ItemDetailPage.jsx:365-369 | the "need N more" note is shown iff the cached balance is below the price, and N is positive and exactly closes the gap |
| ItemDetail.ShownRedeemPassesGuards | src/pages/ItemDetailPage.jsx:332-354 | an enabled, visible redeem button passes every guard of the handler, so the handler succeeds iff both profiles and the item exist; the item it marks was available and therefore approved |
| AddItem.PerFile | src/pages/AddItemPage.jsx:59-65 | one preview per selected file, in the same order; the same shape gives one uploaded URL per file at lines 108-110 |
| AddItem.SelectImages | src/pages/AddItemPage.jsx:48-66 | a selection that would exceed 5 images changes nothing; otherwise the files are appended in order with their previews; at most 5 images are ever held |
| AddItem.RemoveAt | src/pages/AddItemPage.jsx:69-70 | filtering by index removes exactly that index and keeps the rest in order; an index out of range removes nothing |
| AddItem.RemoveImage | src/pages/AddItemPage.jsx:68-73 | removing an image drops the same index from the images and the previews and keeps the bound of 5 |
| AddItem.AddControlMatchesBound | src/pages/AddItemPage.jsx:174 | the add-image control is shown iff selecting one more file would be accepted |
| AddItem.CleanTags | src/pages/AddItemPage.jsx:116 | the cleaned tags are trimmed, non-empty, and no more than the pieces |
| AddItem.CleanTagsAppend | src/pages/AddItemPage.jsx:116 | cleaning distributes over concatenation, so the input order is kept |
| AddItem.CleanTagsAvoid | src/pages/AddItemPage.jsx:116 | cleaning never introduces a character that no piece contains |
| AddItem.ParseTags | src/pages/AddItemPage.jsx:116 | every parsed tag is non-empty, has no comma and has no white space at either end |
| AddItem.ParseTagsConcat | src/pages/AddItemPage.jsx:116 | the tags of `a,b` are the tags of `a` followed by the tags of `b` |
| AddItem.ParseTagsSingle | src/pages/AddItemPage.jsx:116 | a segment without a comma yields its trimmed text, or nothing when that is empty |
| AddItem.PlainPointsInRange | src/pages/AddItemPage.jsx:309-314 | points typed as plain digits that the browser accepts are stored as the same number, from 10 to 200 |
| AddItem.ExponentPointsStoredAsOne | src/pages/AddItemPage.jsx:115 | "1e2" passes the browser's check as 100, yet the stored item costs 1 point, below the field's minimum |
| AddItem.PointlessPointsRefused | src/pages/AddItemPage.jsx:115 | ".1e3" passes the browser's check as 100, yet `parseInt` reads no number from it |
| AddItem.NewItem | src/pages/AddItemPage.jsx:113-125 | a new item is pending and unavailable, belongs to the submitter, carries the uploaded URLs, the parsed tags, the form fields and the points given, and has no moderation or redemption marks |
| AddItem.HandleSubmit | src/pages/AddItemPage.jsx:96-127 | no image fails, then no signed-in user fails, both with no change; otherwise success iff `parseInt` reads the points, adding exactly one pending item with those points under the new id and nothing else |
| AddItem.SubmitItem | src/pages/AddItemPage.jsx:96-127 | a form the browser rejects fails with no change; otherwise the handler runs; success iff the form is valid, an image is selected, someone is signed in and `parseInt` reads the points |
| AddItem.SubmittedImageBound | src/pages/AddItemPage.jsx:51-127 | a submitted item has between 1 and 5 images |
| Browse.OrderOf | src/pages/BrowseItemsPage.jsx:75-93 | exactly the five named sort keys select an order |
| Browse.BeforeTotal | src/pages/BrowseItemsPage.jsx:75-93 | each sort order compares any two items |
| Browse.BeforeTrans | src/pages/BrowseItemsPage.jsx:75-93 | each sort order is transitive |
| Browse.BeforeOn | src/pages/BrowseItemsPage.jsx:75-93 | each sort key's comparator is total and transitive, and a list is ordered by it iff it is sorted by that key |
| Browse.Sort | src/pages/BrowseItemsPage.jsx:75-93 | sorting returns a permutation of its input ordered by the chosen key |
| Browse.Catalog | src/pages/BrowseItemsPage.jsx:29-34 | the catalog holds exactly the approved, available items of the collection, with multiplicity, newest first |
| Browse.CatalogIsAvailable | src/pages/BrowseItemsPage.jsx:29-34 | under the store invariant an item is in the catalog iff it is available |
| Browse.Narrow | src/pages/BrowseItemsPage.jsx:53-72 | the filters keep exactly the items matching the search term, the category and the condition, where an empty control matches everything |
| Browse.FilterAndSort | src/pages/BrowseItemsPage.jsx:52-96 | the shown list is a permutation of the matching items, sorted by a known key; an unknown key keeps the filtered order |
| Browse.ClearFilters | src/pages/BrowseItemsPage.jsx:101-106 | clearing empties the search, category and condition and selects newest first |
| Browse.ClearedShowsEverything | src/pages/BrowseItemsPage.jsx:101-106 | after clearing, every fetched item is shown, newest first |
| Browse.PointsLowOrder | src/pages/BrowseItemsPage.jsx:82-84 | "pointsLow" shows non-decreasing points |
| Browse.PointsHighOrder | src/pages/BrowseItemsPage.jsx:85-87 | "pointsHigh" shows non-increasing points |
| Dashboard.PointsStat | src/pages/Dashboard.jsx:58 | the points stat is the member's numeric balance, or 0 with no user or no points field |
| Dashboard.UserItems | src/pages/Dashboard.jsx:20-24 | the items card holds exactly the member's own items, with multiplicity, newest first |
| Dashboard.UserSwaps | src/pages/Dashboard.jsx:33-37 | the swaps card holds exactly the records listing the member as a participant, with multiplicity, newest first |
| Dashboard.ComputeStats | src/pages/Dashboard.jsx:55-84 | items listed is the item count; active and completed swaps count pending and completed records, and together they are at most the swap count |
| Dashboard.ItemsCardShowsNewest | src/pages/Dashboard.jsx:20-24 | no item left off the items card is newer than one it lists |
| Dashboard.SwapsCardShowsNewest | src/pages/Dashboard.jsx:33-37 | no record left off the swaps card is newer than one it lists |
| Dashboard.Shown | src/pages/Dashboard.jsx:171 | a card lists the first three entries, or all of them when there are fewer |
| Dashboard.MoreNote | src/pages/Dashboard.jsx:188-190 | the "And N more" note appears iff there are more than three entries, and N is positive |
| Dashboard.ShownAndMoreCoverAll | src/pages/Dashboard.jsx:217-240 | the listed entries plus N account for every entry, and with no note the card lists everything |
| Dashboard.StatusLabel | src/pages/Dashboard.jsx:181 | an item without a status reads "Available"; any other status reads as itself |
| Dashboard.AppendedRecordCounts | src/pages/Dashboard.jsx:72-79 | a new record naming the member raises the count for its own status by one and leaves the other count alone |
| Dashboard.RedemptionShowsOnBothDashboards | src/pages/ItemDetailPage.jsx:126-140 | a completed redemption adds one completed swap, and no active one, to the dashboards of both buyer and owner |
| Dashboard.SwapRequestShowsOnBothDashboards | src/pages/ItemDetailPage.jsx:64-77 | a swap request adds one active swap, and no completed one, to the dashboards of both parties |
| Numbers.DigitsValue | src/pages/AddItemPage.jsx:115 | the value of a digit string has fewer digits than its length allows |
| Numbers.DigitRun | src/pages/AddItemPage.jsx:115 | the leading run of digits is all digits and is followed by a non-digit or the end |
| Numbers.ReadNumber | src/pages/AddItemPage.jsx:309-314 | the browser reads a number only from text that starts with a digit, a minus sign or a point |
| Numbers.ReadPlainDigits | src/pages/AddItemPage.jsx:309-314 | the browser reads a plain digit string as its decimal value |
| Numbers.DigitRunOfPrefix | src/pages/AddItemPage.jsx:115 | the digit run of digits followed by a non-digit is exactly those digits |
| Numbers.ParseIntStopsAtNonDigit | src/pages/AddItemPage.jsx:115 | `parseInt` reads the leading digits and ignores everything from the first non-digit on |
| Numbers.ParseSignedDigits | src/pages/AddItemPage.jsx:115 | after a sign, `parseInt` reads the digits that follow, negated for a minus sign |
| Numbers.NoDigitIsNaN | src/pages/AddItemPage.jsx:115 | text starting with anything but white space, a sign or a digit makes `parseInt` give `NaN` |
| Numbers.ParseIntSigned | src/pages/AddItemPage.jsx:115 | after a leading `-` or `+`, `parseInt` reads the digit run that follows, negated for `-` |
| Numbers.ParseIntNegative | src/pages/AddItemPage.jsx:115 | a leading minus sign negates the number `parseInt` reads |
| Numbers.ParseIntPlus | src/pages/AddItemPage.jsx:115 | a leading plus sign does not change the number `parseInt` reads |
| Numbers.ParseInt | src/pages/AddItemPage.jsx:115 | JavaScript's `parseInt`; its own contract says only that a number needs non-empty text, and it is characterised by `ParseIntSkipsSpace` (leading white space), `ParseIntSigned` (a sign, then the digit run), `ParseIntStopsAtNonDigit` (the digit run, rest ignored) and `NoDigitIsNaN` (no digit gives NaN) |
| Numbers.ParseIntSkipsSpace | src/pages/AddItemPage.jsx:115 | `parseInt` skips any amount of leading white space |
| Numbers.ReadingsAgreeOnDigits | src/pages/AddItemPage.jsx:115 | on plain digit strings the browser's reading and `parseInt` give the same number |
| Numbers.ExponentReadings | src/pages/AddItemPage.jsx:115 | the browser reads "1e2" as 100 while `parseInt` reads 1 |
| Numbers.FractionReadings | src/pages/AddItemPage.jsx:115 | the browser reads ".1e3" as 100 while `parseInt` reads nothing |
| ProductCard.IsNew | src/components/ProductCard.jsx:4-10 | a missing or zero `createdAt` is never new; any other is new iff it is less than seven days (in milliseconds) old |
| ProductCard.ExactlyAWeekIsNotNew | src/components/ProductCard.jsx:8-9 | an item exactly seven days old is not new |
| ProductCard.FutureIsNew | src/components/ProductCard.jsx:8-9 | a creation time in the future counts as new |
| ProductCard.NewnessMonotone | src/components/ProductCard.jsx:8-9 | for a fixed clock, anything created after a new item is new too |

## Left out

- Firestore, Cloudinary and Firebase Auth I/O are left out. Collections are in-memory maps and sequences. An upload is a parameter function giving one URL per file. Account creation and sign-in are inputs: the user they produce, or none when they throw. Toasts, navigation, rendering, loading flags, share and clipboard are left out.
- Network and permission failures of the reads (`getDoc`, `getDocs`) are left out. The only write failure modelled is Firestore's: `updateDoc` fails on a missing document, and `deleteDoc` does not.
- Concurrency is left out. Every handler runs to completion before the next, so nothing is claimed about interleaved redemptions, double redemption, or the race between the auth listener and the signup profile write.
- Document ids are inputs. `AddItem.SubmitItem` takes the new id and requires it to be fresh, as Firestore's generated ids are.
- AddItem.HandleSubmit: when `parseInt` reads no digit, the page would store `NaN` points. Item points are integers in the model, so that submission is refused with `PointsNotANumber` instead.
- AddItem.NewItem: the stored points are no longer promised to lie from 10 to 200. The browser checks its own reading of the text, and `parseInt` can read a different number (`AddItem.ExponentPointsStoredAsOne`).
- Numbers.ReadNumber: the value is an exact rational. The browser converts it to a double, which rounds very long digit strings and overflows huge exponents. So the model refuses text that is within double rounding of a whole number but not whole, which the browser accepts. For example, the browser reads "10.00000000000000001" as 10 and lets it through, and `parseInt` stores 10. `AddItem.PointsAccepted` and `AddItem.SubmitItem` refuse it. Likewise "10.99999999999999999" reads as 11 in the browser and is stored as 10.
- Numbers.ParseInt: `parseInt` also reads a `0x` prefix as hexadecimal. The model reads "0x10" as 0, not 16; the browser never accepts such text. Precision loss on very long digit runs is not modelled.
- Denormalised copies are not stored in items and swap records. These are the uploader's and requester's name and email, and the item title. No rule reads them.
- The `updatedAt` server timestamp the add-item page writes is not stored. No rule reads it.
- Auth.ViewerOf: the pages act for `currentUser.uid`. A profile may carry its own `uid` field, which then replaces it. The model treats a non-string `uid` as signed out.
- ItemDetail.RedeemWithPoints: the cached balance is read as a number. A non-numeric `points` value counts as absent, which the guard lets through, as `undefined < price` does. JavaScript would compare other non-numbers by coercion.
- Text.Lower: `toLowerCase` is modelled for ASCII letters only. Other characters map to themselves.
- Text.LexLeqTotal: `localeCompare` is modelled as lexicographic order on code points, not locale collation.
- Browse.Sort: the result is a sorted permutation. Whether equal keys keep their fetched order, as JavaScript's stable sort does, is not stated.
- Dashboard.UserItems: records with equal `createdAt` may come back from Firestore in any order. The model picks one order and states only that the list is newest first. The same holds for Dashboard.UserSwaps.
- Browse.Catalog and the other "newest first" orders compare `createdAt` as integer milliseconds. Firestore timestamp objects are not modelled.
- ProductCard.IsNew: a `createdAt` that is a date string is not modelled. Only timestamp objects and millisecond numbers are.
- AddItem.PerFile: the asynchronous FileReader previews may arrive in any order. The model appends them in step with the images.
- AdminPanel.Perform: the lists are fetched again after each of this admin's actions without waiting (`fetchAdminData` is not awaited). When that fetch lands relative to the next click is not modelled; the lists are an input, fresh (`AdminPanel.Fetch`) or stale.
- Presentation-only files are not part of this model: the landing page, the navigation bar, and the app and provider wiring.

=== FILE: add_item.dfy ===
/**
 * The add-item page: the image picker with its five-image bound, removal of a
 * picked image, the form's own validation, tag parsing, and the item document
 * the submission creates (pending, not yet available).
 */
module AddItem {
  import opened Wrappers
  import opened Text
  import opened Model
  import opened Numbers

  const MAX_IMAGES: nat := 5
  const MIN_POINTS: int := 10
  const MAX_POINTS: int := 200

  /** A file the user picked; the page never looks inside it. */
  datatype File = File(name: string, content: seq<bv8>)

  /** The picked images and their previews, kept index for index. */
  datatype Picker = Picker(images: seq<File>, previews: seq<string>)

  const EmptyPicker: Picker := Picker([], [])

  /** What the page maintains about its picker: at most five images, one preview each. */
  predicate PickerOk(p: Picker) {
    |p.images| <= MAX_IMAGES && |p.previews| == |p.images|
  }

  /**
   * One string per file, in order: the `FileReader` data URL of each preview, or the
   * URL each upload returns.
   */
  function PerFile(files: seq<File>, url: File -> string): (r: seq<string>)
    ensures |r| == |files|
    ensures forall i :: 0 <= i < |files| ==> r[i] == url(files[i])
  {
    seq(|files|, i requires 0 <= i < |files| => url(files[i]))
  }

  /**
   * `handleImageSelect`: a selection that would take the picker past five images is
   * refused as a whole; otherwise the files are appended in order.
   */
  function SelectImages(p: Picker, files: seq<File>, preview: File -> string): (r: Picker)
    ensures |p.images| + |files| > MAX_IMAGES ==> r == p
    ensures |p.images| + |files| <= MAX_IMAGES ==>
      && |r.images| == |p.images| + |files|
      && r.images[..|p.images|] == p.images && r.images[|p.images|..] == files
      && r.previews == p.previews + PerFile(files, preview)
    ensures PickerOk(p) ==> PickerOk(r)
  {
    if |files| + |p.images| > MAX_IMAGES then p
    else Picker(p.images + files, p.previews + PerFile(files, preview))
  }

  /** `s.filter((_, j) => j !== index)`: drops the element at `index`, if there is one. */
  function RemoveAt<T>(s: seq<T>, index: int): (r: seq<T>)
    ensures 0 <= index < |s| ==> r == s[..index] + s[index + 1..]
    ensures !(0 <= index < |s|) ==> r == s
    decreases |s|
  {
    if |s| == 0 then []
    else
      var rest := RemoveAt(s[1..], index - 1);
      assert s == [s[0]] + s[1..];
      if index == 0 then rest
      else
        assert 0 < index < |s| ==> [s[0]] + s[1..][..index - 1] == s[..index];
        [s[0]] + rest
  }

  /** `removeImage`: the image and its preview at `index` go, the rest keep their order. */
  function RemoveImage(p: Picker, index: int): (r: Picker)
    ensures 0 <= index < |p.images| ==> r.images == p.images[..index] + p.images[index + 1..]
    ensures 0 <= index < |p.previews| ==> r.previews == p.previews[..index] + p.previews[index + 1..]
    ensures !(0 <= index < |p.images|) ==> r.images == p.images
    ensures PickerOk(p) ==> PickerOk(r)
  {
    Picker(RemoveAt(p.images, index), RemoveAt(p.previews, index))
  }

  /** The "Add Image" control is rendered. */
  predicate AddControlShown(p: Picker) {
    |p.images| < MAX_IMAGES
  }

  /** The control is shown exactly when one more image would still be accepted. */
  lemma AddControlMatchesBound(p: Picker, f: File, preview: File -> string)
    requires PickerOk(p)
    ensures AddControlShown(p) <==> SelectImages(p, [f], preview).images == p.images + [f]
  {
    if !AddControlShown(p) {
      assert |SelectImages(p, [f], preview).images| != |p.images + [f]|;
    }
  }

  /** The form's fields as typed; `points` is the number field's text. */
  datatype Form = Form(
    title: string,
    description: string,
    category: string,
    garmentType: string,
    size: string,
    condition: string,
    tags: string,
    points: string)

  /**
   * What the browser checks of the points field (`required`, `min="10"`, `max="200"` and
   * the default step of 1 from the minimum): its text reads as a number, that number
   * lies from 10 to 200 and is whole.
   */
  predicate PointsAccepted(text: string) {
    var v := ReadNumber(text);
    v.Some? && MIN_POINTS as real <= v.value <= MAX_POINTS as real && v.value.Floor as real == v.value
  }

  /**
   * The browser's own validation, which runs before the submit handler: the required
   * fields are non-empty and the points field is accepted.
   */
  predicate FormValid(f: Form) {
    && f.title != "" && f.description != "" && f.category != "" && f.size != "" && f.condition != ""
    && PointsAccepted(f.points)
  }

  /** Points typed as plain digits that the browser accepts are stored as that number, 10 to 200. */
  lemma PlainPointsInRange(f: Form)
    requires FormValid(f) && AllDigits(f.points)
    ensures ParseInt(f.points).Some?
    ensures MIN_POINTS <= ParseInt(f.points).value <= MAX_POINTS
    ensures ReadNumber(f.points).Some? && ReadNumber(f.points).value == ParseInt(f.points).value as real
  {
    ReadingsAgreeOnDigits(f.points);
  }

  /** A tag as the page keeps it: non-empty, with no white space at either end. */
  predicate CleanTag(t: string) {
    t != "" && !IsSpace(t[0]) && !IsSpace(t[|t| - 1])
  }

  /** Trims each piece and drops the ones that end up empty. */
  function CleanTags(pieces: seq<string>): (r: seq<string>)
    ensures |r| <= |pieces|
    ensures forall i :: 0 <= i < |r| ==> CleanTag(r[i])
    decreases |pieces|
  {
    if |pieces| == 0 then []
    else
      var t := Trim(pieces[0]);
      var rest := CleanTags(pieces[1..]);
      if t == "" then rest else [t] + rest
  }

  lemma {:induction false} CleanTagsAppend(a: seq<string>, b: seq<string>)
    ensures CleanTags(a + b) == CleanTags(a) + CleanTags(b)
    decreases |a|
  {
    if |a| == 0 {
      assert a + b == b;
    } else {
      assert (a + b)[1..] == a[1..] + b;
      CleanTagsAppend(a[1..], b);
    }
  }

  /** A character that occurs in no piece occurs in no cleaned tag. */
  lemma {:induction false} CleanTagsAvoid(pieces: seq<string>, c: char)
    requires forall j :: 0 <= j < |pieces| ==> c !in pieces[j]
    ensures forall i :: 0 <= i < |CleanTags(pieces)| ==> c !in CleanTags(pieces)[i]
    decreases |pieces|
  {
    if |pieces| > 0 {
      var t := Trim(pieces[0]);
      TrimAvoids(pieces[0], c);
      var rest := CleanTags(pieces[1..]);
      assert forall i :: 0 <= i < |rest| ==> c !in rest[i] by {
        CleanTagsAvoid(pieces[1..], c);
      }
      if t != "" {
        assert CleanTags(pieces) == [t] + rest;
        forall i | 0 < i < |[t] + rest|
          ensures c !in ([t] + rest)[i]
        {
          assert ([t] + rest)[i] == rest[i - 1];
        }
      }
    }
  }

  /**
   * `tags.split(",").map(tag => tag.trim()).filter(tag => tag)`: non-empty tags,
   * trimmed, containing no comma.
   */
  function ParseTags(s: string): (r: seq<string>)
    ensures forall i :: 0 <= i < |r| ==> r[i] != "" && ',' !in r[i]
    ensures forall i :: 0 <= i < |r| ==> !IsSpace(r[i][0]) && !IsSpace(r[i][|r[i]| - 1])
  {
    var pieces := Split(s, ',');
    CleanTagsAvoid(pieces, ',');
    CleanTags(pieces)
  }

  /** A comma splits the tags into those of each side, in order. */
  lemma ParseTagsConcat(a: string, b: string)
    ensures ParseTags(a + [','] + b) == ParseTags(a) + ParseTags(b)
  {
    SplitConcat(a, b, ',');
    CleanTagsAppend(Split(a, ','), Split(b, ','));
  }

  /** Text without a comma is one tag, its trimmed self, unless that is empty. */
  lemma ParseTagsSingle(s: string)
    requires ',' !in s
    ensures ParseTags(s) == if Trim(s) == "" then [] else [Trim(s)]
  {
    SplitNoSeparator(s, ',');
  }

  /**
   * The document `handleSubmit` stores: the form's fields with parsed points and tags,
   * the uploaded image URLs, the uploader, and the pending, unavailable state.
   */
  function NewItem(uploader: Uid, f: Form, points: int, urls: seq<string>, now: int): (it: Item)
    ensures it.status == PENDING && !it.available && it.uploaderId == uploader
    ensures it.images == urls && it.tags == ParseTags(f.tags)
    ensures it.points == points
    ensures it.title == f.title && it.description == f.description && it.category == f.category
    ensures it.garmentType == f.garmentType && it.size == f.size && it.condition == f.condition
    ensures it.createdAt == now
    ensures it.approvedBy.None? && it.rejectedBy.None? && it.redeemedBy.None?
  {
    Item(uploader, f.title, f.description, f.category, f.garmentType, f.size, f.condition,
         ParseTags(f.tags), urls, points, PENDING, false, now,
         None, None, None, None, None, None)
  }

  /**
   * `handleSubmit`. Every picked image is uploaded (`upload` gives its URL) and one
   * pending, unavailable item is stored under `newId`, the fresh id `addDoc` assigns.
   * Its points are `parseInt` of the field's text, not the number the browser
   * validated; text `parseInt` cannot read is refused here, where the page would
   * store `NaN`.
   */
  function HandleSubmit(s: Store, viewer: Option<Viewer>, f: Form, p: Picker, upload: File -> string,
                        newId: Id, now: int): (r: Step)
    requires newId !in s.items
    ensures |p.images| == 0 ==> r == Step(s, Err(NoImages))
    ensures |p.images| > 0 && viewer.None? ==> r == Step(s, Err(NotLoggedIn))
    ensures |p.images| > 0 && viewer.Some? && ParseInt(f.points).None? ==> r == Step(s, Err(PointsNotANumber))
    ensures r.outcome.Ok? <==> |p.images| > 0 && viewer.Some? && ParseInt(f.points).Some?
    ensures r.outcome.Err? ==> r.store == s
    ensures r.outcome.Ok? ==>
      && r.store.users == s.users && r.store.swaps == s.swaps
      && r.store.items.Keys == s.items.Keys + {newId}
      && (forall id :: id in s.items ==> r.store.items[id] == s.items[id])
      && r.store.items[newId] == NewItem(viewer.value.uid, f, ParseInt(f.points).value, PerFile(p.images, upload), now)
    ensures AvailableImpliesApproved(s.items) ==> AvailableImpliesApproved(r.store.items)
  {
    if |p.images| == 0 then Step(s, Err(NoImages))
    else if viewer.None? then Step(s, Err(NotLoggedIn))
    else
      match ParseInt(f.points)
      case None => Step(s, Err(PointsNotANumber))
      case Some(points) =>
        var it := NewItem(viewer.value.uid, f, points, PerFile(p.images, upload), now);
        Step(s.(items := s.items[newId := it]), Ok)
  }

  /** A submission: the browser's form validation, then `handleSubmit` when it passes. */
  function SubmitItem(s: Store, viewer: Option<Viewer>, f: Form, p: Picker, upload: File -> string,
                      newId: Id, now: int): (r: Step)
    requires newId !in s.items
    ensures !FormValid(f) ==> r == Step(s, Err(FormInvalid))
    ensures FormValid(f) ==> r == HandleSubmit(s, viewer, f, p, upload, newId, now)
    ensures r.outcome.Ok? <==> FormValid(f) && |p.images| > 0 && viewer.Some? && ParseInt(f.points).Some?
    ensures r.outcome.Err? ==> r.store == s
    ensures AvailableImpliesApproved(s.items) ==> AvailableImpliesApproved(r.store.items)
  {
    if !FormValid(f) then Step(s, Err(FormInvalid))
    else HandleSubmit(s, viewer, f, p, upload, newId, now)
  }

  /** An item submitted from a picker the page maintains has one to five images. */
  lemma SubmittedImageBound(s: Store, viewer: Option<Viewer>, f: Form, p: Picker, upload: File -> string,
                            newId: Id, now: int)
    requires newId !in s.items && PickerOk(p)
    ensures var r := SubmitItem(s, viewer, f, p, upload, newId, now);
      r.outcome.Ok? ==> 1 <= |r.store.items[newId].images| <= MAX_IMAGES
  {
  }

  /** A form whose points field holds `text`, every other required field filled in. */
  function FormWithPoints(text: string): (f: Form)
    ensures f.points == text && f.title != "" && f.size != ""
  {
    Form("Jacket", "Warm", "Outerwear", "Coat", "M", "Good", "", text)
  }

  /**
   * "1e2" passes the browser's check as 100, yet the item is stored with the 1 that
   * `parseInt` reads, below the minimum the field promises.
   */
  lemma ExponentPointsStoredAsOne(s: Store, viewer: Viewer, p: Picker, upload: File -> string,
                                  newId: Id, now: int)
    requires newId !in s.items && |p.images| > 0
    ensures FormValid(FormWithPoints("1e2"))
    ensures var r := SubmitItem(s, Some(viewer), FormWithPoints("1e2"), p, upload, newId, now);
      r.outcome.Ok? && r.store.items[newId].points == 1 < MIN_POINTS
  {
    ExponentReadings();
    assert (100.0).Floor == 100;
  }

  /** ".1e3" passes the browser's check as 100, yet `parseInt` reads no digit from it. */
  lemma PointlessPointsRefused(s: Store, viewer: Viewer, p: Picker, upload: File -> string,
                               newId: Id, now: int)
    requires newId !in s.items && |p.images| > 0
    ensures FormValid(FormWithPoints(".1e3"))
    ensures SubmitItem(s, Some(viewer), FormWithPoints(".1e3"), p, upload, newId, now)
      == Step(s, Err(PointsNotANumber))
  {
    FractionReadings();
    assert (100.0).Floor == 100;
  }
}

=== FILE: admin_panel.dfy ===
/**
 * The admin panel: approving, rejecting and deleting items, granting and removing
 * admin rights, and the counters at the top of the panel. Every action is reachable
 * only through the panel, which renders nothing but "Access Denied" for a non-admin.
 */
module AdminPanel {
  import opened Wrappers
  import opened Docs
  import opened Seqs
  import opened Model

  /**
   * `handleApproveItem`: a single `updateDoc`, which fails when the item document no
   * longer exists. The item's current status is not consulted, so a rejected item can
   * be approved too.
   */
  function ApproveItem(s: Store, admin: Uid, itemId: Id, now: int): (r: Step)
    ensures itemId !in s.items ==> r == Step(s, Err(NotFound("items", itemId)))
    ensures itemId in s.items ==>
      && r.outcome == Ok
      && r.store.users == s.users && r.store.swaps == s.swaps
      && OnlyChanged(s.items, r.store.items, itemId)
      && var before, after := s.items[itemId], r.store.items[itemId];
         && after.status == APPROVED && after.available
         && after.approvedBy == Some(admin) && after.approvedAt == Some(now)
         && SameListing(before, after) && SameRejection(before, after) && SameRedemption(before, after)
    ensures AvailableImpliesApproved(s.items) ==> AvailableImpliesApproved(r.store.items)
  {
    if itemId !in s.items then Step(s, Err(NotFound("items", itemId)))
    else
      var it := s.items[itemId].(status := APPROVED, available := true,
                                 approvedAt := Some(now), approvedBy := Some(admin));
      Step(s.(items := s.items[itemId := it]), Ok)
  }

  /** `handleRejectItem`: like approval, but the item becomes rejected and unavailable. */
  function RejectItem(s: Store, admin: Uid, itemId: Id, now: int): (r: Step)
    ensures itemId !in s.items ==> r == Step(s, Err(NotFound("items", itemId)))
    ensures itemId in s.items ==>
      && r.outcome == Ok
      && r.store.users == s.users && r.store.swaps == s.swaps
      && OnlyChanged(s.items, r.store.items, itemId)
      && var before, after := s.items[itemId], r.store.items[itemId];
         && after.status == REJECTED && !after.available
         && after.rejectedBy == Some(admin) && after.rejectedAt == Some(now)
         && SameListing(before, after) && SameApproval(before, after) && SameRedemption(before, after)
    ensures AvailableImpliesApproved(s.items) ==> AvailableImpliesApproved(r.store.items)
  {
    if itemId !in s.items then Step(s, Err(NotFound("items", itemId)))
    else
      var it := s.items[itemId].(status := REJECTED, available := false,
                                 rejectedAt := Some(now), rejectedBy := Some(admin));
      Step(s.(items := s.items[itemId := it]), Ok)
  }

  /**
   * `handleDeleteItem`: nothing happens unless the admin confirms; `deleteDoc` of a
   * document that is already gone still succeeds.
   */
  function DeleteItem(s: Store, itemId: Id, confirmed: bool): (r: Step)
    ensures !confirmed ==> r == Step(s, Err(Cancelled))
    ensures confirmed ==>
      && r.outcome == Ok
      && r.store.users == s.users && r.store.swaps == s.swaps
      && r.store.items.Keys == s.items.Keys - {itemId}
      && forall id :: id in r.store.items ==> r.store.items[id] == s.items[id]
    ensures AvailableImpliesApproved(s.items) ==> AvailableImpliesApproved(r.store.items)
  {
    if !confirmed then Step(s, Err(Cancelled))
    else Step(s.(items := s.items - {itemId}), Ok)
  }

  /**
   * `handleToggleUserAdmin`: writes the negation of the flag the user row showed;
   * the update fails when the user document does not exist.
   */
  function ToggleUserAdmin(s: Store, userId: Uid, isCurrentlyAdmin: bool): (r: Step)
    ensures userId !in s.users ==> r == Step(s, Err(NotFound("users", userId)))
    ensures userId in s.users ==>
      && r.outcome == Ok
      && r.store.items == s.items && r.store.swaps == s.swaps
      && OnlyChanged(s.users, r.store.users, userId)
      && var before, after := s.users[userId], r.store.users[userId];
         && after.Keys == before.Keys + {"isAdmin"}
         && after["isAdmin"] == Bool(!isCurrentlyAdmin)
         && forall k :: k in before && k != "isAdmin" ==> after[k] == before[k]
  {
    if userId !in s.users then Step(s, Err(NotFound("users", userId)))
    else Step(s.(users := s.users[userId := s.users[userId]["isAdmin" := Bool(!isCurrentlyAdmin)]]), Ok)
  }

  /** The panel's controls: one per pending item, item, and user row. */
  datatype Action = Approve(itemId: Id) | Reject(itemId: Id) | Delete(itemId: Id) | ToggleAdmin(userId: Uid)

  /**
   * The lists the panel renders from: the pending items, all items, and each user row
   * with the admin flag it displays. They are whatever `fetchAdminData` loaded last, on
   * mount or after one of this admin's own actions, so another session's writes since
   * then are not reflected.
   */
  datatype Panel = Panel(pending: set<Id>, items: set<Id>, users: map<Uid, bool>)

  /** `fetchAdminData` run against store `s`: the three queries, keyed by document id. */
  function Fetch(s: Store): (p: Panel)
    ensures forall id :: id in p.pending <==> id in s.items && s.items[id].status == PENDING
    ensures p.items == s.items.Keys
    ensures p.users.Keys == s.users.Keys
    ensures forall u :: u in p.users ==> p.users[u] == Truthy(s.users[u], "isAdmin")
  {
    Panel((set id | id in s.items && s.items[id].status == PENDING),
          s.items.Keys,
          map u | u in s.users :: Truthy(s.users[u], "isAdmin"))
  }

  /**
   * Whether the panel renders the control for `a`: approve and reject on the pending
   * tab, delete on the all-items tab, and the admin toggle on every user row except
   * the acting admin's own.
   */
  predicate Offered(admin: Viewer, panel: Panel, a: Action) {
    match a
    case Approve(id) => id in panel.pending
    case Reject(id) => id in panel.pending
    case Delete(id) => id in panel.items
    case ToggleAdmin(uid) => uid in panel.users && uid != admin.uid
  }

  /**
   * One click in the panel by `viewer`, on a control of `panel`, against the current
   * store `s`. The toggle passes the flag its row displays. `confirmed` is the answer to
   * the delete confirmation dialog; `now` is the clock.
   */
  function Perform(viewer: Option<Viewer>, panel: Panel, s: Store, a: Action, confirmed: bool, now: int)
    : (r: Step)
    ensures viewer.None? || !viewer.value.isAdmin ==> r == Step(s, Err(AccessDenied))
    ensures a.ToggleAdmin? && viewer.Some? && a.userId == viewer.value.uid ==> r.store == s
    ensures r.store != s ==> viewer.Some? && viewer.value.isAdmin && Offered(viewer.value, panel, a)
    ensures viewer.Some? && viewer.value.isAdmin && !Offered(viewer.value, panel, a) ==>
      r == Step(s, Err(NotOffered))
    // an admin's offered click runs the matching handler on the current store
    ensures viewer.Some? && viewer.value.isAdmin && Offered(viewer.value, panel, a) ==>
      && (match a
          case Approve(id) => r == ApproveItem(s, viewer.value.uid, id, now)
          case Reject(id) => r == RejectItem(s, viewer.value.uid, id, now)
          case Delete(id) => r == DeleteItem(s, id, confirmed)
          case ToggleAdmin(uid) => r == ToggleUserAdmin(s, uid, panel.users[uid]))
      && (r.outcome == Ok <==>
          match a
          case Approve(id) => id in s.items
          case Reject(id) => id in s.items
          case Delete(_) => confirmed
          case ToggleAdmin(uid) => uid in s.users)
    ensures r.store.swaps == s.swaps
    ensures AvailableImpliesApproved(s.items) ==> AvailableImpliesApproved(r.store.items)
  {
    if viewer.None? || !viewer.value.isAdmin then Step(s, Err(AccessDenied))
    else if !Offered(viewer.value, panel, a) then Step(s, Err(NotOffered))
    else
      match a
      case Approve(id) => ApproveItem(s, viewer.value.uid, id, now)
      case Reject(id) => RejectItem(s, viewer.value.uid, id, now)
      case Delete(id) => DeleteItem(s, id, confirmed)
      case ToggleAdmin(uid) => ToggleUserAdmin(s, uid, panel.users[uid])
  }

  /**
   * On a freshly fetched panel the controls are exactly those the store calls for:
   * approve and reject for pending items, delete for every item, and a toggle for every
   * other user, which passes that user's stored flag.
   */
  lemma FreshPanelOffers(admin: Viewer, s: Store, a: Action)
    ensures Offered(admin, Fetch(s), a) <==>
      match a
      case Approve(id) => id in s.items && s.items[id].status == PENDING
      case Reject(id) => id in s.items && s.items[id].status == PENDING
      case Delete(id) => id in s.items
      case ToggleAdmin(uid) => uid in s.users && uid != admin.uid
    ensures a.ToggleAdmin? && Offered(admin, Fetch(s), a) ==>
      Fetch(s).users[a.userId] == Truthy(s.users[a.userId], "isAdmin")
  {
  }

  /**
   * A stale pending tab still approves: when another session rejects an item after the
   * panel loaded it as pending, the item's Approve control approves it anyway, because
   * `handleApproveItem` does not look at the status.
   */
  lemma StalePendingApproves(admin: Viewer, other: Uid, s: Store, id: Id, t0: int, now: int, confirmed: bool)
    requires admin.isAdmin && id in s.items && s.items[id].status == PENDING
    ensures var panel := Fetch(s);
      var rejected := RejectItem(s, other, id, t0).store;
      var r := Perform(Some(admin), panel, rejected, Approve(id), confirmed, now);
      && rejected.items[id].status == REJECTED
      && r.outcome == Ok && r.store.items[id].status == APPROVED && r.store.items[id].available
  {
  }

  /** Toggling another user's row of a fresh panel flips that user's admin flag and touches no one else. */
  lemma ToggleFlips(admin: Viewer, s: Store, uid: Uid, confirmed: bool, now: int)
    requires admin.isAdmin && uid in s.users && uid != admin.uid
    ensures var r := Perform(Some(admin), Fetch(s), s, ToggleAdmin(uid), confirmed, now);
      && r.outcome == Ok
      && OnlyChanged(s.users, r.store.users, uid)
      && Truthy(r.store.users[uid], "isAdmin") == !Truthy(s.users[uid], "isAdmin")
  {
  }

  /** The store a fresh panel's toggle leaves: the row's user with the stored flag negated. */
  lemma FreshToggle(admin: Viewer, s: Store, uid: Uid, confirmed: bool, now: int)
    requires admin.isAdmin && uid in s.users && uid != admin.uid
    ensures Perform(Some(admin), Fetch(s), s, ToggleAdmin(uid), confirmed, now).store
      == s.(users := s.users[uid := s.users[uid]["isAdmin" := Bool(!Truthy(s.users[uid], "isAdmin"))]])
  {
  }

  /** Negating a user's stored admin flag twice leaves it holding its original truth value. */
  lemma FlipTwice(users: map<Uid, Doc>, uid: Uid)
    requires uid in users
    ensures var once := users[uid := users[uid]["isAdmin" := Bool(!Truthy(users[uid], "isAdmin"))]];
      once[uid := once[uid]["isAdmin" := Bool(!Truthy(once[uid], "isAdmin"))]]
      == users[uid := users[uid]["isAdmin" := Bool(Truthy(users[uid], "isAdmin"))]]
  {
    var t := Truthy(users[uid], "isAdmin");
    var flipped := users[uid]["isAdmin" := Bool(!t)];
    assert Truthy(flipped, "isAdmin") == !t;
    assert flipped["isAdmin" := Bool(t)] == users[uid]["isAdmin" := Bool(t)];
  }

  /**
   * Toggling the same row twice, with the panel fetched again after the first toggle,
   * restores the flag's meaning and every other field.
   */
  lemma {:induction false} ToggleTwice(admin: Viewer, s: Store, uid: Uid, confirmed: bool, now: int)
    requires admin.isAdmin && uid in s.users && uid != admin.uid
    ensures var r1 := Perform(Some(admin), Fetch(s), s, ToggleAdmin(uid), confirmed, now);
      var r2 := Perform(Some(admin), Fetch(r1.store), r1.store, ToggleAdmin(uid), confirmed, now);
      && r2.store.users == s.users[uid := s.users[uid]["isAdmin" := Bool(Truthy(s.users[uid], "isAdmin"))]]
      && r2.store.items == s.items
  {
    FreshToggle(admin, s, uid, confirmed, now);
    var s1 := Perform(Some(admin), Fetch(s), s, ToggleAdmin(uid), confirmed, now).store;
    FreshToggle(admin, s1, uid, confirmed, now);
    FlipTwice(s.users, uid);
  }

  /**
   * Clicking a row's toggle twice before the panel is fetched again writes the same
   * flag twice: the row still displays the old flag, so the second click changes nothing.
   */
  lemma StaleToggleRepeats(admin: Viewer, s: Store, uid: Uid, confirmed: bool, now: int)
    requires admin.isAdmin && uid in s.users && uid != admin.uid
    ensures var panel := Fetch(s);
      var r1 := Perform(Some(admin), panel, s, ToggleAdmin(uid), confirmed, now);
      Perform(Some(admin), panel, r1.store, ToggleAdmin(uid), confirmed, now).store == r1.store
  {
    var panel := Fetch(s);
    var r1 := Perform(Some(admin), panel, s, ToggleAdmin(uid), confirmed, now);
    var d := r1.store.users[uid];
    assert d["isAdmin" := Bool(!panel.users[uid])] == d;
    assert r1.store.users[uid := d] == r1.store.users;
  }

  /** Approving or rejecting an item a second time changes nothing further. */
  lemma {:induction false} ModerationIdempotent(s: Store, admin: Uid, itemId: Id, now: int)
    ensures var r := ApproveItem(s, admin, itemId, now);
      ApproveItem(r.store, admin, itemId, now).store == r.store
    ensures var r := RejectItem(s, admin, itemId, now);
      RejectItem(r.store, admin, itemId, now).store == r.store
  {
    if itemId in s.items {
      var r := ApproveItem(s, admin, itemId, now);
      assert r.store.items[itemId := r.store.items[itemId]] == r.store.items;
      var q := RejectItem(s, admin, itemId, now);
      assert q.store.items[itemId := q.store.items[itemId]] == q.store.items;
    }
  }

  /** The four counters at the top of the panel. */
  datatype Stats = Stats(totalUsers: nat, totalItems: nat, pendingItems: nat, approvedItems: nat)

  predicate IsPending(it: Item) { it.status == PENDING }

  predicate IsApproved(it: Item) { it.status == APPROVED }

  /**
   * The counters `fetchAdminData` computes from the users list and the items list;
   * the pending count is the length of the pending-items query over the same items.
   */
  function ComputeStats(users: seq<Doc>, allItems: seq<Item>): (r: Stats)
    ensures r.totalUsers == |users| && r.totalItems == |allItems|
    ensures r.pendingItems == Count(allItems, IsPending)
    ensures r.approvedItems == Count(allItems, IsApproved)
    ensures r.pendingItems + r.approvedItems <= r.totalItems
  {
    var pendingData := Filter(allItems, IsPending);
    CountDisjoint(allItems, IsPending, IsApproved);
    Stats(|users|, |allItems|, |pendingData|, |Filter(allItems, IsApproved)|)
  }
}

=== FILE: auth.dfy ===
/**
 * Session and profile handling of the authentication context: profile creation at
 * sign-up and at first Google sign-in, the session the auth-state listener derives
 * from a profile (`initializeUser`), the banned gate, and sign-out.
 */
module Auth {
  import opened Wrappers
  import opened Docs
  import opened Model

  /** Every new profile starts with this balance. */
  const STARTING_POINTS: int := 100

  /** The identity Firebase Authentication hands back after a successful sign-in or sign-up. */
  datatype AuthUser = AuthUser(uid: Uid, email: string, displayName: Option<string>, photoUrl: Option<string>)

  /** The context's `currentUser` and `userLoggedIn` state. */
  datatype Session = Session(currentUser: Option<Doc>, userLoggedIn: bool)

  const SignedOut: Session := Session(None, false)

  /** The two state variables always move together. */
  predicate Consistent(s: Session) {
    s.userLoggedIn <==> s.currentUser.Some?
  }

  /** The handlers' result: the `users` collection, the session, and whether the call succeeded. */
  datatype AuthStep = AuthStep(users: map<Uid, Doc>, session: Session, outcome: Outcome)

  /** `{uid: user.uid, email: user.email, ...profile}`: the profile's own fields win. */
  function SessionDoc(u: AuthUser, profile: Doc): (d: Doc)
    ensures d.Keys == profile.Keys + {"uid", "email"}
    ensures forall k :: k in profile ==> d[k] == profile[k]
    ensures "uid" !in profile ==> d["uid"] == Str(u.uid)
    ensures "email" !in profile ==> d["email"] == Str(u.email)
  {
    map["uid" := Str(u.uid), "email" := Str(u.email)] + profile
  }

  /**
   * `initializeUser`: no signed-in user, no profile document, or a banned profile
   * each give the signed-out session; otherwise the session holds the profile.
   */
  function InitializeUser(users: map<Uid, Doc>, user: Option<AuthUser>): (s: Session)
    ensures Consistent(s)
    ensures s.userLoggedIn <==>
      user.Some? && user.value.uid in users && !Truthy(users[user.value.uid], "banned")
    ensures s.userLoggedIn ==>
      forall k :: k in users[user.value.uid] ==>
        k in s.currentUser.value && s.currentUser.value[k] == users[user.value.uid][k]
    ensures s.userLoggedIn ==> s.currentUser.value == SessionDoc(user.value, users[user.value.uid])
  {
    match user
    case None => SignedOut
    case Some(u) =>
      if u.uid !in users then SignedOut
      else
        var profile := users[u.uid];
        if Truthy(profile, "banned") then SignedOut
        else Session(Some(SessionDoc(u, profile)), true)
  }

  /**
   * The profile `signup` stores: the sign-up data without `email` and `password`,
   * framed by the account's email before it and the fixed balance, admin flag and
   * creation time after it, so the fixed fields override anything the data supplies.
   */
  function SignupProfile(u: AuthUser, data: Doc, now: string): (p: Doc)
    ensures p.Keys == (data.Keys - {"password"}) + {"email", "points", "isAdmin", "createdAt"}
    ensures p["points"] == Num(STARTING_POINTS) && p["isAdmin"] == Bool(false)
    ensures p["email"] == Str(u.email) && p["createdAt"] == Str(now)
    ensures "password" !in p
    ensures forall k :: k in data && k !in {"email", "password", "points", "isAdmin", "createdAt"} ==>
      p[k] == data[k]
  {
    var additional := data - {"email", "password"};
    map["email" := Str(u.email)] + additional
      + map["points" := Num(STARTING_POINTS), "isAdmin" := Bool(false), "createdAt" := Str(now)]
  }

  /**
   * `signup`: `created` is the account Firebase Authentication made, or `None` when it
   * refused (for example an email already in use), in which case nothing changes.
   */
  function Signup(users: map<Uid, Doc>, session: Session, data: Doc, created: Option<AuthUser>, now: string)
    : (r: AuthStep)
    ensures created.None? ==> r == AuthStep(users, session, Err(AuthFailed))
    ensures created.Some? ==>
      var u := created.value;
      && r.outcome == Ok
      && r.users.Keys == users.Keys + {u.uid}
      && (forall k :: k in users && k != u.uid ==> r.users[k] == users[k])
      && "points" in r.users[u.uid] && r.users[u.uid]["points"] == Num(STARTING_POINTS)
      && "isAdmin" in r.users[u.uid] && r.users[u.uid]["isAdmin"] == Bool(false)
      && "password" !in r.users[u.uid]
      && r.session.userLoggedIn && Consistent(r.session)
      && "password" !in r.session.currentUser.value
      && r.users[u.uid] == SignupProfile(u, data, now)
      && r.session == Session(Some(SessionDoc(u, r.users[u.uid])), true)
  {
    match created
    case None => AuthStep(users, session, Err(AuthFailed))
    case Some(u) =>
      var profile := SignupProfile(u, data, now);
      AuthStep(users[u.uid := profile], Session(Some(SessionDoc(u, profile)), true), Ok)
  }

  /**
   * `login`, together with the auth-state listener it triggers: the sign-in fires the
   * listener with the user, and the `signOut` of the banned path fires it with no user.
   */
  function Login(users: map<Uid, Doc>, session: Session, signedIn: Option<AuthUser>): (r: AuthStep)
    ensures r.users == users
    ensures signedIn.None? ==> r.session == session && r.outcome == Err(AuthFailed)
    ensures signedIn.Some? ==> r.session == InitializeUser(users, signedIn)
    ensures signedIn.Some? ==> (r.outcome == Ok <==> r.session.userLoggedIn)
    ensures signedIn.Some? && signedIn.value.uid in users && Truthy(users[signedIn.value.uid], "banned") ==>
      r.outcome == Err(Banned) && !r.session.userLoggedIn
  {
    match signedIn
    case None => AuthStep(users, session, Err(AuthFailed))
    case Some(u) =>
      if u.uid !in users then AuthStep(users, SignedOut, Err(ProfileMissing))
      else
        var userData := users[u.uid];
        if Truthy(userData, "banned") then AuthStep(users, SignedOut, Err(Banned))
        else AuthStep(users, Session(Some(SessionDoc(u, userData)), true), Ok)
  }

  /** The profile a first Google sign-in stores; display name and photo default to "". */
  function GoogleProfile(u: AuthUser, now: string): (p: Doc)
    ensures {"email", "name", "points", "isAdmin", "createdAt", "avatar"} == p.Keys
    ensures p["points"] == Num(STARTING_POINTS) && p["isAdmin"] == Bool(false)
    ensures p["name"] == Str(u.displayName.GetOr(""))
    ensures !Truthy(p, "banned") && "uid" !in p
  {
    map[
      "email" := Str(u.email),
      "name" := Str(if u.displayName.Some? && u.displayName.value != "" then u.displayName.value else ""),
      "points" := Num(STARTING_POINTS),
      "isAdmin" := Bool(false),
      "createdAt" := Str(now),
      "avatar" := Str(if u.photoUrl.Some? && u.photoUrl.value != "" then u.photoUrl.value else "")
    ]
  }

  /** `googleSignIn`: create the profile only when none exists, then initialise the session from it. */
  function GoogleSignIn(users: map<Uid, Doc>, session: Session, signedIn: Option<AuthUser>, now: string)
    : (r: AuthStep)
    ensures signedIn.None? ==> r == AuthStep(users, session, Err(AuthFailed))
    ensures signedIn.Some? && signedIn.value.uid in users ==> r.users == users
    ensures signedIn.Some? && signedIn.value.uid !in users ==>
      && r.users.Keys == users.Keys + {signedIn.value.uid}
      && (forall k :: k in users ==> r.users[k] == users[k])
      && "points" in r.users[signedIn.value.uid]
      && r.users[signedIn.value.uid]["points"] == Num(STARTING_POINTS)
      && "isAdmin" in r.users[signedIn.value.uid]
      && r.users[signedIn.value.uid]["isAdmin"] == Bool(false)
      && r.users[signedIn.value.uid] == GoogleProfile(signedIn.value, now)
      && r.session.userLoggedIn
    ensures signedIn.Some? ==> r.session == InitializeUser(r.users, signedIn) && Consistent(r.session)
    // a completed popup always reports success, even when the stored profile is banned and the session ends signed out
    ensures signedIn.Some? ==> r.outcome == Ok
    ensures signedIn.Some? && signedIn.value.uid in users && Truthy(users[signedIn.value.uid], "banned") ==>
      r.outcome == Ok && !r.session.userLoggedIn
  {
    match signedIn
    case None => AuthStep(users, session, Err(AuthFailed))
    case Some(u) =>
      var users' := if u.uid in users then users else users[u.uid := GoogleProfile(u, now)];
      AuthStep(users', InitializeUser(users', signedIn), Ok)
  }

  /**
   * `logout`: the session ends signed out. A failing `signOut` is only logged, and the
   * local state is cleared either way, so the outcome of the call is not a parameter.
   */
  function Logout(session: Session): (s: Session)
    ensures s.currentUser.None? && !s.userLoggedIn
  {
    Session(None, false)
  }

  /** What the exchange pages read from the session: uid, cached points and the admin flag. */
  function ViewerOf(s: Session): (v: Option<Viewer>)
    ensures v.Some? ==> s.userLoggedIn && s.currentUser.Some?
    ensures v.Some? ==>
      && "uid" in s.currentUser.value && s.currentUser.value["uid"] == Str(v.value.uid)
      && v.value.points == NumberField(s.currentUser.value, "points")
      && v.value.isAdmin == Truthy(s.currentUser.value, "isAdmin")
  {
    if !s.userLoggedIn || s.currentUser.None? then None
    else
      var d := s.currentUser.value;
      if "uid" in d && d["uid"].Str? then Some(Viewer(d["uid"].s, NumberField(d, "points"), Truthy(d, "isAdmin")))
      else None
  }

  /** Every handler leaves the two session variables in step. */
  lemma SessionsConsistent(users: map<Uid, Doc>, session: Session, data: Doc, u: Option<AuthUser>,
                           now: string)
    requires Consistent(session)
    ensures Consistent(InitializeUser(users, u))
    ensures Consistent(Signup(users, session, data, u, now).session)
    ensures Consistent(Login(users, session, u).session)
    ensures Consistent(GoogleSignIn(users, session, u, now).session)
    ensures Consistent(Logout(session))
  {
  }

  /**
   * A signed-in profile without its own `uid` field gives a viewer exactly when it is
   * not banned, carrying the account's uid and the profile's balance and admin flag.
   */
  lemma SignedInViewer(users: map<Uid, Doc>, u: AuthUser)
    requires u.uid in users && "uid" !in users[u.uid]
    ensures ViewerOf(InitializeUser(users, Some(u))).Some? <==> !Truthy(users[u.uid], "banned")
    ensures !Truthy(users[u.uid], "banned") ==>
      ViewerOf(InitializeUser(users, Some(u)))
        == Some(Viewer(u.uid, NumberField(users[u.uid], "points"), Truthy(users[u.uid], "isAdmin")))
  {
  }

  /** A fresh sign-up acts with 100 points and no admin rights, whatever the form data said. */
  lemma SignupViewer(users: map<Uid, Doc>, session: Session, data: Doc, u: AuthUser, now: string)
    requires "uid" !in data
    ensures ViewerOf(Signup(users, session, data, Some(u), now).session) == Some(Viewer(u.uid, Some(STARTING_POINTS), false))
  {
  }
}

=== FILE: browse.dfy ===
/**
 * The browse page: the catalog query (approved and available items, newest first),
 * the search, category and condition filters, the five sort orders, and
 * "Clear Filters". `localeCompare` is modelled by lexicographic order on code points.
 */
module Browse {
  import opened Wrappers
  import opened Seqs
  import opened Text
  import opened Model

  /** The catalog query's `where` clauses. */
  predicate InCatalog(d: ItemDoc) {
    d.item.status == APPROVED && d.item.available
  }

  datatype Order = Newest | Oldest | PointsLow | PointsHigh | TitleAZ

  /** The sort keys the page's select offers; any other key sorts nothing. */
  function OrderOf(sortBy: string): (o: Option<Order>)
    ensures o.None? <==> sortBy !in {"newest", "oldest", "pointsLow", "pointsHigh", "titleAZ"}
  {
    if sortBy == "newest" then Some(Newest)
    else if sortBy == "oldest" then Some(Oldest)
    else if sortBy == "pointsLow" then Some(PointsLow)
    else if sortBy == "pointsHigh" then Some(PointsHigh)
    else if sortBy == "titleAZ" then Some(TitleAZ)
    else None
  }

  /** `a` may precede `b` in order `o`: the comparator of that sort key is not positive. */
  predicate Before(o: Order, a: Item, b: Item) {
    match o
    case Newest => a.createdAt >= b.createdAt
    case Oldest => a.createdAt <= b.createdAt
    case PointsLow => a.points <= b.points
    case PointsHigh => a.points >= b.points
    case TitleAZ => LexLeq(a.title, b.title)
  }

  lemma BeforeTotal(o: Order, a: Item, b: Item)
    ensures Before(o, a, b) || Before(o, b, a)
  {
    if o.TitleAZ? {
      LexLeqTotal(a.title, b.title);
    }
  }

  lemma BeforeTrans(o: Order, a: Item, b: Item, c: Item)
    requires Before(o, a, b) && Before(o, b, c)
    ensures Before(o, a, c)
  {
    if o.TitleAZ? {
      LexLeqTrans(a.title, b.title, c.title);
    }
  }

  predicate SortedBy(o: Order, s: seq<ItemDoc>) {
    forall i, j :: 0 <= i < j < |s| ==> Before(o, s[i].item, s[j].item)
  }

  /** The comparator `sort` receives for order `o`, on the page's item documents. */
  function BeforeOn(o: Order): (before: (ItemDoc, ItemDoc) -> bool)
    ensures Total(before) && Transitive(before)
    ensures forall s :: Ordered(s, before) <==> SortedBy(o, s)
  {
    var before := (a: ItemDoc, b: ItemDoc) => Before(o, a.item, b.item);
    forall a: ItemDoc, b: ItemDoc
      ensures before(a, b) || before(b, a)
    {
      BeforeTotal(o, a.item, b.item);
    }
    forall a: ItemDoc, b: ItemDoc, c: ItemDoc | before(a, b) && before(b, c)
      ensures before(a, c)
    {
      BeforeTrans(o, a.item, b.item, c.item);
    }
    before
  }

  /** `Array.prototype.sort` with the comparator of order `o`: a sorted permutation. */
  function Sort(o: Order, s: seq<ItemDoc>): (r: seq<ItemDoc>)
    ensures |r| == |s|
    ensures multiset(r) == multiset(s)
    ensures SortedBy(o, r)
  {
    Seqs.Sort(s, BeforeOn(o))
  }

  /**
   * The items the page fetches: the collection's approved, available documents,
   * newest first.
   */
  function Catalog(collection: seq<ItemDoc>): (r: seq<ItemDoc>)
    ensures forall d :: d in r ==> d.item.status == APPROVED && d.item.available
    ensures forall d :: multiset(r)[d] == if InCatalog(d) then multiset(collection)[d] else 0
    ensures SortedBy(Newest, r)
  {
    var r := Sort(Newest, Filter(collection, InCatalog));
    assert forall d :: d in r ==> multiset(r)[d] > 0;
    r
  }

  /**
   * Under the item invariant the catalog's status test is redundant: a document of
   * the store is in the catalog exactly when it is available.
   */
  lemma CatalogIsAvailable(s: Store, collection: seq<ItemDoc>, d: ItemDoc)
    requires AvailableImpliesApproved(s.items)
    requires forall e :: e in collection ==> e.id in s.items && s.items[e.id] == e.item
    requires d in collection
    ensures d in Catalog(collection) <==> d.item.available
  {
    assert multiset(collection)[d] > 0;
    assert d in Catalog(collection) <==> multiset(Catalog(collection))[d] > 0;
  }

  /** The search box: a case-insensitive substring of the title, the description or some tag. */
  predicate MatchesSearch(term: string, it: Item) {
    var t := Lower(term);
    || Contains(Lower(it.title), t)
    || Contains(Lower(it.description), t)
    || exists i :: 0 <= i < |it.tags| && Contains(Lower(it.tags[i]), t)
  }

  /** The filter and sort controls of the page. */
  datatype Criteria = Criteria(searchTerm: string, category: string, condition: string, sortBy: string)

  /** An item passes every filter that is set; an empty control filters nothing. */
  predicate Selected(c: Criteria, d: ItemDoc) {
    && (c.searchTerm == "" || MatchesSearch(c.searchTerm, d.item))
    && (c.category == "" || d.item.category == c.category)
    && (c.condition == "" || d.item.condition == c.condition)
  }

  /** The three filters of `filterAndSortItems`, applied in turn. */
  function Narrow(items: seq<ItemDoc>, c: Criteria): (r: seq<ItemDoc>)
    ensures |r| <= |items|
    ensures forall d :: multiset(r)[d] == if Selected(c, d) then multiset(items)[d] else 0
  {
    var bySearch := if c.searchTerm != "" then Filter(items, (d: ItemDoc) => MatchesSearch(c.searchTerm, d.item)) else items;
    var byCategory := if c.category != "" then Filter(bySearch, (d: ItemDoc) => d.item.category == c.category) else bySearch;
    if c.condition != "" then Filter(byCategory, (d: ItemDoc) => d.item.condition == c.condition) else byCategory
  }

  /**
   * `filterAndSortItems`: the selected items, sorted by the chosen key; an unknown key
   * keeps the filtered order.
   */
  function FilterAndSort(items: seq<ItemDoc>, c: Criteria): (r: seq<ItemDoc>)
    ensures |r| <= |items|
    ensures multiset(r) <= multiset(items)
    ensures forall d :: d in r ==> Selected(c, d)
    ensures forall d :: multiset(r)[d] == if Selected(c, d) then multiset(items)[d] else 0
    ensures OrderOf(c.sortBy).Some? ==> SortedBy(OrderOf(c.sortBy).value, r)
    ensures OrderOf(c.sortBy).None? ==> r == Narrow(items, c)
  {
    var narrowed := Narrow(items, c);
    match OrderOf(c.sortBy)
    case Some(o) => Sort(o, narrowed)
    case None => narrowed
  }

  /** `clearFilters`: empty search, category and condition, newest first. */
  function ClearFilters(c: Criteria): (r: Criteria)
    ensures r.searchTerm == "" && r.category == "" && r.condition == ""
    ensures OrderOf(r.sortBy) == Some(Newest)
  {
    c.(searchTerm := "", category := "", condition := "", sortBy := "newest")
  }

  /** After clearing, the page shows every fetched item, newest first. */
  lemma ClearedShowsEverything(items: seq<ItemDoc>, c: Criteria)
    ensures var r := FilterAndSort(items, ClearFilters(c));
      multiset(r) == multiset(items) && SortedBy(Newest, r)
  {
    var r := FilterAndSort(items, ClearFilters(c));
    assert forall d :: multiset(r)[d] == multiset(items)[d];
  }

  /** Low to high sorts the shown items by non-decreasing points. */
  lemma PointsLowOrder(items: seq<ItemDoc>, c: Criteria)
    requires c.sortBy == "pointsLow"
    ensures var r := FilterAndSort(items, c);
      forall i, j :: 0 <= i < j < |r| ==> r[i].item.points <= r[j].item.points
  {
    assert OrderOf(c.sortBy) == Some(PointsLow);
    var r := FilterAndSort(items, c);
    assert SortedBy(PointsLow, r);
    forall i, j | 0 <= i < j < |r|
      ensures r[i].item.points <= r[j].item.points
    {
      assert Before(PointsLow, r[i].item, r[j].item);
    }
  }

  /** High to low sorts the shown items by non-increasing points. */
  lemma PointsHighOrder(items: seq<ItemDoc>, c: Criteria)
    requires c.sortBy == "pointsHigh"
    ensures var r := FilterAndSort(items, c);
      forall i, j :: 0 <= i < j < |r| ==> r[i].item.points >= r[j].item.points
  {
    assert OrderOf(c.sortBy) == Some(PointsHigh);
    var r := FilterAndSort(items, c);
    assert SortedBy(PointsHigh, r);
    forall i, j | 0 <= i < j < |r|
      ensures r[i].item.points >= r[j].item.points
    {
      assert Before(PointsHigh, r[i].item, r[j].item);
    }
  }
}

=== FILE: dashboard.dfy ===
/**
 * The member dashboard: the four stat counters, the member's own items and swap
 * records, and the cards that list the first three of each with an "And N more" note.
 */
module Dashboard {
  import opened Wrappers
  import opened Docs
  import opened Seqs
  import opened Model
  import Browse
  import ItemDetail

  /** How many entries each card lists. */
  const PREVIEW_LENGTH: nat := 3

  /** The "Total Points" stat, `currentUser?.points || 0`. */
  function PointsStat(currentUser: Option<Doc>): (v: Value)
    ensures currentUser.None? ==> v == Num(0)
    ensures currentUser.Some? && NumberField(currentUser.value, "points").Some? ==>
      v == Num(NumberField(currentUser.value, "points").value)
    ensures currentUser.Some? && "points" !in currentUser.value ==> v == Num(0)
  {
    if currentUser.Some? && Truthy(currentUser.value, "points") then currentUser.value["points"] else Num(0)
  }

  /** The `where` clause of the items query. */
  function UploadedBy(uid: Uid): (p: ItemDoc -> bool)
    ensures forall d :: p(d) <==> d.item.uploaderId == uid
  {
    (d: ItemDoc) => d.item.uploaderId == uid
  }

  /** The items query: the member's own items, `orderBy("createdAt", "desc")`. */
  function UserItems(collection: seq<ItemDoc>, uid: Uid): (r: seq<ItemDoc>)
    ensures forall d :: multiset(r)[d] == if d.item.uploaderId == uid then multiset(collection)[d] else 0
    ensures forall d :: d in r ==> d.item.uploaderId == uid
    ensures forall i, j :: 0 <= i < j < |r| ==> r[i].item.createdAt >= r[j].item.createdAt
  {
    var mine := Filter(collection, UploadedBy(uid));
    var r := Browse.Sort(Browse.Newest, mine);
    forall d | d in r
      ensures d.item.uploaderId == uid
    {
      assert multiset(r)[d] > 0;
    }
    r
  }

  /** The `where` clause of the swaps query, `participants array-contains uid`. */
  function Involving(uid: Uid): (p: SwapRecord -> bool)
    ensures forall w :: p(w) <==> uid in w.participants
  {
    (w: SwapRecord) => uid in w.participants
  }

  /** The order of the swaps query, `orderBy("createdAt", "desc")`: newer records first. */
  function NewerSwap(): (before: (SwapRecord, SwapRecord) -> bool)
    ensures Total(before) && Transitive(before)
    ensures forall a, b :: before(a, b) <==> a.createdAt >= b.createdAt
  {
    (a: SwapRecord, b: SwapRecord) => a.createdAt >= b.createdAt
  }

  /** The swaps query: every record that lists the member among its participants, newest first. */
  function UserSwaps(swaps: seq<SwapRecord>, uid: Uid): (r: seq<SwapRecord>)
    ensures multiset(r) == multiset(Filter(swaps, Involving(uid)))
    ensures forall w :: multiset(r)[w] == if uid in w.participants then multiset(swaps)[w] else 0
    ensures forall w :: w in r ==> uid in w.participants
    ensures forall i, j :: 0 <= i < j < |r| ==> r[i].createdAt >= r[j].createdAt
  {
    var r := Seqs.Sort(Filter(swaps, Involving(uid)), NewerSwap());
    forall w | w in r
      ensures uid in w.participants
    {
      assert multiset(r)[w] > 0;
    }
    r
  }

  predicate IsPendingSwap(w: SwapRecord) { w.status == PENDING }

  predicate IsCompletedSwap(w: SwapRecord) { w.status == COMPLETED }

  datatype Stats = Stats(points: Value, itemsListed: nat, activeSwaps: nat, completedSwaps: nat)

  /** The four stat cards. */
  function ComputeStats(currentUser: Option<Doc>, userItems: seq<ItemDoc>, userSwaps: seq<SwapRecord>): (r: Stats)
    ensures r.points == PointsStat(currentUser)
    ensures r.itemsListed == |userItems|
    ensures r.activeSwaps == Count(userSwaps, IsPendingSwap)
    ensures r.completedSwaps == Count(userSwaps, IsCompletedSwap)
    ensures r.activeSwaps + r.completedSwaps <= |userSwaps|
  {
    CountDisjoint(userSwaps, IsPendingSwap, IsCompletedSwap);
    Stats(PointsStat(currentUser), |userItems|,
          |Filter(userSwaps, IsPendingSwap)|, |Filter(userSwaps, IsCompletedSwap)|)
  }

  /** `list.slice(0, 3)`: the entries a card lists, in order. */
  function Shown<T>(s: seq<T>): (r: seq<T>)
    ensures |r| == if |s| < PREVIEW_LENGTH then |s| else PREVIEW_LENGTH
    ensures r == s[..|r|]
  {
    if |s| <= PREVIEW_LENGTH then s else s[..PREVIEW_LENGTH]
  }

  /** The "And N more" note, shown when the card lists fewer entries than there are. */
  function MoreNote<T>(s: seq<T>): (n: Option<nat>)
    ensures n.Some? <==> |s| > PREVIEW_LENGTH
    ensures n.Some? ==> n.value > 0
  {
    if |s| > PREVIEW_LENGTH then Some(|s| - PREVIEW_LENGTH) else None
  }

  /** The listed entries and the number in the note account for every entry exactly once. */
  lemma ShownAndMoreCoverAll<T>(s: seq<T>)
    ensures |Shown(s)| + MoreNote(s).GetOr(0) == |s|
    ensures MoreNote(s).None? ==> Shown(s) == s
  {
  }

  /** The items card lists the member's newest items: none left off the card is newer. */
  lemma ItemsCardShowsNewest(collection: seq<ItemDoc>, uid: Uid)
    ensures var r := UserItems(collection, uid);
      forall i, j :: 0 <= i < |Shown(r)| <= j < |r| ==> Shown(r)[i].item.createdAt >= r[j].item.createdAt
  {
  }

  /** The swaps card lists the member's newest records: none left off the card is newer. */
  lemma SwapsCardShowsNewest(swaps: seq<SwapRecord>, uid: Uid)
    ensures var r := UserSwaps(swaps, uid);
      forall i, j :: 0 <= i < |Shown(r)| <= j < |r| ==> Shown(r)[i].createdAt >= r[j].createdAt
  {
  }

  /** The status line of an item card: `item.status || "Available"`. */
  function StatusLabel(status: string): (r: string)
    ensures r != ""
    ensures status != "" ==> r == status
    ensures status == "" ==> r == "Available"
  {
    if status != "" then status else "Available"
  }

  /** Appending one record that lists the member changes the member's counts by its status alone. */
  lemma AppendedRecordCounts(swaps: seq<SwapRecord>, rec: SwapRecord, uid: Uid)
    requires uid in rec.participants
    ensures Count(UserSwaps(swaps + [rec], uid), IsCompletedSwap)
      == Count(UserSwaps(swaps, uid), IsCompletedSwap) + (if IsCompletedSwap(rec) then 1 else 0)
    ensures Count(UserSwaps(swaps + [rec], uid), IsPendingSwap)
      == Count(UserSwaps(swaps, uid), IsPendingSwap) + (if IsPendingSwap(rec) then 1 else 0)
  {
    var p := Involving(uid);
    var before, after := Filter(swaps, p), Filter(swaps + [rec], p);
    FilterAppend(swaps, [rec], p);
    assert Filter([rec], p) == [rec];
    assert after == before + [rec];
    CountPermutation(UserSwaps(swaps, uid), before, IsCompletedSwap);
    CountPermutation(UserSwaps(swaps, uid), before, IsPendingSwap);
    CountPermutation(UserSwaps(swaps + [rec], uid), after, IsCompletedSwap);
    CountPermutation(UserSwaps(swaps + [rec], uid), after, IsPendingSwap);
    CountAppend(before, [rec], IsCompletedSwap);
    CountAppend(before, [rec], IsPendingSwap);
  }

  /** A completed redemption adds one completed swap to the dashboard of each party. */
  lemma RedemptionShowsOnBothDashboards(s: Store, viewer: Option<Viewer>, page: ItemDoc, now: int, uid: Uid)
    requires ItemDetail.RedeemWithPoints(s, viewer, page, now).outcome.Ok?
    requires uid == viewer.value.uid || uid == page.item.uploaderId
    ensures var after := ItemDetail.RedeemWithPoints(s, viewer, page, now).store;
      && Count(UserSwaps(after.swaps, uid), IsCompletedSwap) == Count(UserSwaps(s.swaps, uid), IsCompletedSwap) + 1
      && Count(UserSwaps(after.swaps, uid), IsPendingSwap) == Count(UserSwaps(s.swaps, uid), IsPendingSwap)
  {
    var after := ItemDetail.RedeemWithPoints(s, viewer, page, now).store;
    var rec := after.swaps[|s.swaps|];
    assert after.swaps == after.swaps[..|s.swaps|] + [rec];
    AppendedRecordCounts(s.swaps, rec, uid);
  }

  /** A swap request adds one active swap to the dashboard of each party. */
  lemma SwapRequestShowsOnBothDashboards(s: Store, viewer: Option<Viewer>, page: ItemDoc, now: int, uid: Uid)
    requires ItemDetail.RequestSwap(s, viewer, page, now).outcome.Ok?
    requires uid == viewer.value.uid || uid == page.item.uploaderId
    ensures var after := ItemDetail.RequestSwap(s, viewer, page, now).store;
      && Count(UserSwaps(after.swaps, uid), IsPendingSwap) == Count(UserSwaps(s.swaps, uid), IsPendingSwap) + 1
      && Count(UserSwaps(after.swaps, uid), IsCompletedSwap) == Count(UserSwaps(s.swaps, uid), IsCompletedSwap)
  {
    var after := ItemDetail.RequestSwap(s, viewer, page, now).store;
    var rec := after.swaps[|s.swaps|];
    assert after.swaps == after.swaps[..|s.swaps|] + [rec];
    AppendedRecordCounts(s.swaps, rec, uid);
  }
}

=== FILE: docs.dfy ===
/**
 * Firestore documents as the profile code sees them: a map from field names to
 * primitive values. Object spreads (`{a, ...b, c}`) are map unions in which later
 * fields win, exactly Dafny's right-biased `+` on maps.
 */
module Docs {
  import opened Wrappers

  datatype Value = Str(s: string) | Num(n: int) | Bool(b: bool)

  type Doc = map<string, Value>

  /** JavaScript truthiness of `doc.key`; a missing field reads as `undefined`, which is falsy. */
  predicate Truthy(d: Doc, key: string) {
    key in d &&
    match d[key]
    case Str(s) => s != ""
    case Num(n) => n != 0
    case Bool(b) => b
  }

  /** `doc.key` when it holds a number; anything else compares like `NaN`. */
  function NumberField(d: Doc, key: string): (r: Option<int>)
    ensures r.Some? <==> key in d && d[key].Num?
    ensures r.Some? ==> d[key] == Num(r.value)
  {
    if key in d && d[key].Num? then Some(d[key].n) else None
  }

  /**
   * Firestore's `increment(delta)` field transform: a numeric field grows by `delta`;
   * a missing or non-numeric field is set to `delta`. Every other field is kept.
   */
  function Increment(d: Doc, key: string, delta: int): (r: Doc)
    ensures r.Keys == d.Keys + {key}
    ensures NumberField(r, key) == Some(NumberField(d, key).GetOr(0) + delta)
    ensures forall k :: k in d && k != key ==> r[k] == d[k]
  {
    d[key := Num(NumberField(d, key).GetOr(0) + delta)]
  }
}

=== FILE: item_detail.dfy ===
/**
 * The item detail page: requesting a swap, redeeming an item with points, and the
 * gating of the two action buttons. Redemption is four separate awaited writes
 * (debit, credit, mark the item, add the audit record); a write that fails stops
 * the handler and the earlier writes stay.
 */
module ItemDetail {
  import opened Wrappers
  import opened Docs
  import opened Model

  /** JavaScript's `balance < price`; a missing balance compares false, as `undefined` does. */
  predicate PointsBelow(balance: Option<int>, price: int) {
    balance.Some? && balance.value < price
  }

  /** The stored points balance of `uid`, if the profile exists and holds a number. */
  function Balance(users: map<Uid, Doc>, uid: Uid): (b: Option<int>)
    ensures b.Some? ==> uid in users && "points" in users[uid] && users[uid]["points"] == Num(b.value)
  {
    if uid in users then NumberField(users[uid], "points") else None
  }

  /**
   * `handleSwapRequest` on the item `page` as the page loaded it: refused when signed
   * out or for one's own item, otherwise one pending swap record is added. The item's
   * availability is not consulted here.
   */
  function RequestSwap(s: Store, viewer: Option<Viewer>, page: ItemDoc, now: int): (r: Step)
    ensures viewer.None? ==> r == Step(s, Err(NotLoggedIn))
    ensures viewer.Some? && viewer.value.uid == page.item.uploaderId ==> r == Step(s, Err(OwnItem))
    ensures r.outcome.Ok? <==> viewer.Some? && viewer.value.uid != page.item.uploaderId
    ensures r.outcome.Ok? ==>
      && r.store.users == s.users && r.store.items == s.items
      && |r.store.swaps| == |s.swaps| + 1 && r.store.swaps[..|s.swaps|] == s.swaps
      && var rec := r.store.swaps[|s.swaps|];
         && rec.status == PENDING && rec.kind == SWAP && rec.itemId == page.id
         && rec.requesterId == viewer.value.uid && rec.uploaderId == page.item.uploaderId
         && rec.participants == [viewer.value.uid, page.item.uploaderId]
         && rec.pointsUsed.None? && rec.createdAt == now
  {
    if viewer.None? then Step(s, Err(NotLoggedIn))
    else if viewer.value.uid == page.item.uploaderId then Step(s, Err(OwnItem))
    else
      var me := viewer.value.uid;
      var rec := SwapRecord(me, page.id, page.item.uploaderId, PENDING, SWAP, None, now,
                            [me, page.item.uploaderId]);
      Step(s.(swaps := s.swaps + [rec]), Ok)
  }

  /**
   * `price` points went from `from` to `to`: the same profiles exist, the two balances
   * moved by the price (a missing or non-numeric one counts as 0), and no other
   * profile changed.
   */
  predicate Transferred(before: map<Uid, Doc>, after: map<Uid, Doc>, from: Uid, to: Uid, price: int) {
    && after.Keys == before.Keys
    && (forall u :: u in before && u != from && u != to ==> after[u] == before[u])
    && Balance(after, from).Some? && Balance(after, from).value == Balance(before, from).GetOr(0) - price
    && Balance(after, to).Some? && Balance(after, to).value == Balance(before, to).GetOr(0) + price
  }

  /** The three checks `handlePointsRedemption` makes before writing anything. */
  predicate RedeemGuardsPass(viewer: Option<Viewer>, it: Item) {
    viewer.Some? && viewer.value.uid != it.uploaderId && !PointsBelow(viewer.value.points, it.points)
  }

  /** The last two writes of a redemption: mark the item redeemed by `me`, add the completed record. */
  function MarkRedeemed(s: Store, me: Uid, page: ItemDoc, now: int): (r: Step)
    requires page.id in s.items
    ensures r.outcome.Ok? && r.store.users == s.users
    ensures OnlyChanged(s.items, r.store.items, page.id)
    ensures var before, after := s.items[page.id], r.store.items[page.id];
      && !after.available && after.redeemedBy == Some(me) && after.redeemedAt == Some(now)
      && after.status == before.status
      && SameListing(before, after) && SameApproval(before, after) && SameRejection(before, after)
    ensures |r.store.swaps| == |s.swaps| + 1 && r.store.swaps[..|s.swaps|] == s.swaps
    ensures var rec := r.store.swaps[|s.swaps|];
      && rec.status == COMPLETED && rec.kind == REDEMPTION && rec.pointsUsed == Some(page.item.points)
      && rec.itemId == page.id && rec.requesterId == me && rec.uploaderId == page.item.uploaderId
      && rec.participants == [me, page.item.uploaderId]
    ensures AvailableImpliesApproved(s.items) ==> AvailableImpliesApproved(r.store.items)
  {
    var it := page.item;
    var marked := s.items[page.id].(available := false, redeemedBy := Some(me), redeemedAt := Some(now));
    var s1 := s.(items := s.items[page.id := marked]);
    var rec := SwapRecord(me, page.id, it.uploaderId, COMPLETED, REDEMPTION, Some(it.points), now,
                          [me, it.uploaderId]);
    Step(s1.(swaps := s1.swaps + [rec]), Ok)
  }

  /**
   * The four writes of `handlePointsRedemption` once its guards have passed: debit the
   * buyer `me`, credit the owner, mark the item, add the record. Each write needs its
   * document to exist; the first one that fails ends the handler, and the writes made
   * before it stay.
   */
  function RedeemWrites(s: Store, me: Uid, page: ItemDoc, now: int): (r: Step)
    requires me != page.item.uploaderId
    ensures r.outcome.Ok? <==> me in s.users && page.item.uploaderId in s.users && page.id in s.items
    ensures r.outcome.Ok? ==>
      var owner, price := page.item.uploaderId, page.item.points;
      && Transferred(s.users, r.store.users, me, owner, price)
      && OnlyChanged(s.items, r.store.items, page.id)
      && (var before, after := s.items[page.id], r.store.items[page.id];
          && !after.available && after.redeemedBy == Some(me) && after.redeemedAt == Some(now)
          && after.status == before.status
          && SameListing(before, after) && SameApproval(before, after) && SameRejection(before, after))
      && |r.store.swaps| == |s.swaps| + 1 && r.store.swaps[..|s.swaps|] == s.swaps
      && var rec := r.store.swaps[|s.swaps|];
         && rec.status == COMPLETED && rec.kind == REDEMPTION && rec.pointsUsed == Some(price)
         && rec.itemId == page.id && rec.requesterId == me && rec.uploaderId == owner
         && rec.participants == [me, owner]
    ensures me !in s.users ==> r.store == s
    ensures me in s.users && page.item.uploaderId !in s.users ==>
      && r.store.items == s.items && r.store.swaps == s.swaps
      && OnlyChanged(s.users, r.store.users, me)
      && Balance(r.store.users, me).Some?
      && Balance(r.store.users, me).value == Balance(s.users, me).GetOr(0) - page.item.points
    ensures me in s.users && page.item.uploaderId in s.users && page.id !in s.items ==>
      && r.store.items == s.items && r.store.swaps == s.swaps
      && Transferred(s.users, r.store.users, me, page.item.uploaderId, page.item.points)
    ensures AvailableImpliesApproved(s.items) ==> AvailableImpliesApproved(r.store.items)
  {
    var it := page.item;
    if me !in s.users then Step(s, Err(NotFound("users", me)))
    else
      var s1 := s.(users := s.users[me := Increment(s.users[me], "points", -it.points)]);
      if it.uploaderId !in s1.users then Step(s1, Err(NotFound("users", it.uploaderId)))
      else
        var s2 := s1.(users := s1.users[it.uploaderId := Increment(s1.users[it.uploaderId], "points", it.points)]);
        assert Transferred(s.users, s2.users, me, it.uploaderId, it.points);
        if page.id !in s2.items then Step(s2, Err(NotFound("items", page.id)))
        else MarkRedeemed(s2, me, page, now)
  }

  /**
   * `handlePointsRedemption`. The balance check uses the points cached in the session,
   * not the stored balance. Each `updateDoc` fails when its document is missing, and the
   * writes made before it are not undone.
   */
  function RedeemWithPoints(s: Store, viewer: Option<Viewer>, page: ItemDoc, now: int): (r: Step)
    ensures viewer.None? ==> r == Step(s, Err(NotLoggedIn))
    ensures viewer.Some? && viewer.value.uid == page.item.uploaderId ==> r == Step(s, Err(OwnItem))
    ensures viewer.Some? && viewer.value.uid != page.item.uploaderId && PointsBelow(viewer.value.points, page.item.points) ==>
      r.store == s && r.outcome.Err? && r.outcome.error.NeedMorePoints?
      && r.outcome.error.shortfall > 0
      && viewer.value.points.value + r.outcome.error.shortfall == page.item.points
    ensures r.outcome.Ok? <==>
      RedeemGuardsPass(viewer, page.item) && viewer.value.uid in s.users
      && page.item.uploaderId in s.users && page.id in s.items
    ensures r.outcome.Ok? ==>
      var me, owner, price := viewer.value.uid, page.item.uploaderId, page.item.points;
      // the two balances move by the price and no other profile changes
      && Transferred(s.users, r.store.users, me, owner, price)
      // the item is marked redeemed and nothing else about it changes
      && OnlyChanged(s.items, r.store.items, page.id)
      && (var before, after := s.items[page.id], r.store.items[page.id];
          && !after.available && after.redeemedBy == Some(me) && after.redeemedAt == Some(now)
          && after.status == before.status
          && SameListing(before, after) && SameApproval(before, after) && SameRejection(before, after))
      // one completed redemption record is added
      && |r.store.swaps| == |s.swaps| + 1 && r.store.swaps[..|s.swaps|] == s.swaps
      && var rec := r.store.swaps[|s.swaps|];
         && rec.status == COMPLETED && rec.kind == REDEMPTION && rec.pointsUsed == Some(price)
         && rec.itemId == page.id && rec.requesterId == me && rec.uploaderId == owner
         && rec.participants == [me, owner]
    ensures RedeemGuardsPass(viewer, page.item) && viewer.value.uid !in s.users ==> r.store == s
    ensures RedeemGuardsPass(viewer, page.item) && viewer.value.uid in s.users
            && page.item.uploaderId !in s.users ==>
      // the debit landed, the credit did not
      && r.outcome.Err? && r.store.items == s.items && r.store.swaps == s.swaps
      && OnlyChanged(s.users, r.store.users, viewer.value.uid)
      && Balance(r.store.users, viewer.value.uid).Some?
      && Balance(r.store.users, viewer.value.uid).value == Balance(s.users, viewer.value.uid).GetOr(0) - page.item.points
    ensures RedeemGuardsPass(viewer, page.item) && viewer.value.uid in s.users
            && page.item.uploaderId in s.users && page.id !in s.items ==>
      var me, owner, price := viewer.value.uid, page.item.uploaderId, page.item.points;
      // both balance writes landed, the item write did not
      && r.outcome.Err? && r.store.items == s.items && r.store.swaps == s.swaps
      && Transferred(s.users, r.store.users, me, owner, price)
    ensures AvailableImpliesApproved(s.items) ==> AvailableImpliesApproved(r.store.items)
  {
    if viewer.None? then Step(s, Err(NotLoggedIn))
    else
      var me, it := viewer.value, page.item;
      if me.uid == it.uploaderId then Step(s, Err(OwnItem))
      else if PointsBelow(me.points, it.points) then Step(s, Err(NeedMorePoints(it.points - me.points.value)))
      else RedeemWrites(s, me.uid, page, now)
  }

  /** A completed redemption between two numeric balances leaves their sum unchanged. */
  lemma RedeemConservesPoints(s: Store, viewer: Option<Viewer>, page: ItemDoc, now: int)
    requires Balance(s.users, page.item.uploaderId).Some?
    requires viewer.Some? && Balance(s.users, viewer.value.uid).Some?
    ensures var r := RedeemWithPoints(s, viewer, page, now);
      r.outcome.Ok? ==>
        Balance(r.store.users, viewer.value.uid).value + Balance(r.store.users, page.item.uploaderId).value
        == Balance(s.users, viewer.value.uid).value + Balance(s.users, page.item.uploaderId).value
  {
  }

  /** With a cached balance equal to the stored one, a redemption never overdraws. */
  lemma FreshBalanceNeverOverdraws(s: Store, viewer: Viewer, page: ItemDoc, now: int)
    requires viewer.points.Some? && viewer.points == Balance(s.users, viewer.uid)
    ensures var r := RedeemWithPoints(s, Some(viewer), page, now);
      r.outcome.Ok? ==> Balance(r.store.users, viewer.uid).value >= 0
  {
  }

  /**
   * The cached balance can be stale: a viewer whose session still shows 100 points
   * redeems a 40-point item while the stored balance is 0, and the balance goes negative.
   */
  lemma StaleBalanceCanOverdraw(it: Item)
    requires it.uploaderId == "owner" && it.points == 40
    ensures var s := Store(map["buyer" := map["points" := Num(0)], "owner" := map["points" := Num(0)]],
                           map["x" := it], []);
      var r := RedeemWithPoints(s, Some(Viewer("buyer", Some(100), false)), ItemDoc("x", it), 0);
      r.outcome.Ok? && Balance(r.store.users, "buyer") == Some(-40)
  {
  }

  /** The redemption handler reads neither the item's availability nor its moderation status. */
  lemma RedeemIgnoresAvailability(s: Store, viewer: Option<Viewer>, id: Id, it: Item, available: bool,
                                  status: string, now: int)
    ensures RedeemWithPoints(s, viewer, ItemDoc(id, it.(available := available, status := status)), now)
         == RedeemWithPoints(s, viewer, ItemDoc(id, it), now)
  {
  }

  /** Neither does the swap-request handler. */
  lemma SwapRequestIgnoresAvailability(s: Store, viewer: Option<Viewer>, id: Id, it: Item, available: bool,
                                       status: string, now: int)
    ensures RequestSwap(s, viewer, ItemDoc(id, it.(available := available, status := status)), now)
         == RequestSwap(s, viewer, ItemDoc(id, it), now)
  {
  }

  /** The swap and redeem buttons are rendered: signed in, not the uploader, item available. */
  predicate ActionsShown(viewer: Option<Viewer>, it: Item) {
    viewer.Some? && viewer.value.uid != it.uploaderId && it.available
  }

  /** The redeem button is clickable: not busy and not short of points. */
  predicate RedeemEnabled(viewer: Viewer, it: Item, redeemLoading: bool) {
    !(redeemLoading || PointsBelow(viewer.points, it.points))
  }

  /** The "(Need N more)" note on the redeem button, when it is shown. */
  function ShortfallNote(viewer: Viewer, it: Item): (r: Option<int>)
    ensures r.Some? <==> PointsBelow(viewer.points, it.points)
    ensures r.Some? ==> r.value > 0 && viewer.points.value + r.value == it.points
  {
    if PointsBelow(viewer.points, it.points) then Some(it.points - viewer.points.value) else None
  }

  /**
   * A click on a rendered, enabled redeem button passes all three guards, so it
   * succeeds exactly when the two profiles and the item document exist; and on a
   * page that shows the stored item, under the item invariant, that item is approved.
   */
  lemma ShownRedeemPassesGuards(s: Store, viewer: Option<Viewer>, page: ItemDoc, now: int)
    requires ActionsShown(viewer, page.item) && RedeemEnabled(viewer.value, page.item, false)
    ensures RedeemGuardsPass(viewer, page.item)
    ensures RedeemWithPoints(s, viewer, page, now).outcome.Ok? <==>
      viewer.value.uid in s.users && page.item.uploaderId in s.users && page.id in s.items
    ensures AvailableImpliesApproved(s.items) && page.id in s.items && s.items[page.id] == page.item ==>
      s.items[page.id].status == APPROVED
  {
  }
}

=== FILE: model.dfy ===
/**
 * The shared data model of the exchange: the three Firestore collections
 * (`users`, `items`, `swaps`) held in memory, the viewer a page acts for,
 * and the outcome every handler reports.
 */
module Model {
  import opened Wrappers
  import opened Docs

  type Uid = string
  type Id = string

  /** Moderation states of an item and kinds/states of a swap record, as the documents store them. */
  const PENDING: string := "pending"
  const APPROVED: string := "approved"
  const REJECTED: string := "rejected"
  const COMPLETED: string := "completed"
  const SWAP: string := "swap"
  const REDEMPTION: string := "redemption"

  /**
   * An `items` document. `status` is stored as a string; the empty string stands for a
   * document without a status. Times are integer milliseconds.
   */
  datatype Item = Item(
    uploaderId: Uid,
    title: string,
    description: string,
    category: string,
    garmentType: string,
    size: string,
    condition: string,
    tags: seq<string>,
    images: seq<string>,
    points: int,
    status: string,
    available: bool,
    createdAt: int,
    approvedBy: Option<Uid>,
    approvedAt: Option<int>,
    rejectedBy: Option<Uid>,
    rejectedAt: Option<int>,
    redeemedBy: Option<Uid>,
    redeemedAt: Option<int>)

  /** An item as a page holds it after loading: `{id: doc.id, ...doc.data()}`. */
  datatype ItemDoc = ItemDoc(id: Id, item: Item)

  /** A `swaps` document: a swap request or the audit record of a redemption. */
  datatype SwapRecord = SwapRecord(
    requesterId: Uid,
    itemId: Id,
    uploaderId: Uid,
    status: string,
    kind: string,
    pointsUsed: Option<int>,
    createdAt: int,
    participants: seq<Uid>)

  /** The three collections; `swaps` only ever grows, so it is kept in insertion order. */
  datatype Store = Store(users: map<Uid, Doc>, items: map<Id, Item>, swaps: seq<SwapRecord>)

  /**
   * What a page knows about the signed-in user: the uid, the cached points
   * balance (absent when the profile has no numeric `points`) and the admin flag.
   */
  datatype Viewer = Viewer(uid: Uid, points: Option<int>, isAdmin: bool)

  datatype Error =
    | NotLoggedIn
    | OwnItem
    | NeedMorePoints(shortfall: int)
    | NotFound(collection: string, id: string)
    | AccessDenied
    | NotOffered
    | Cancelled
    | NoImages
    | TooManyImages
    | FormInvalid
    | PointsNotANumber
    | AuthFailed
    | ProfileMissing
    | Banned

  datatype Outcome = Ok | Err(error: Error)

  /** The store after a handler ran, and what the handler reported. */
  datatype Step = Step(store: Store, outcome: Outcome)

  /** The item invariant of the exchange: only an approved item is available. */
  predicate AvailableImpliesApproved(items: map<Id, Item>) {
    forall id :: id in items && items[id].available ==> items[id].status == APPROVED
  }

  /** The fields written when the item is listed; no later handler changes them. */
  predicate SameListing(a: Item, b: Item) {
    && a.uploaderId == b.uploaderId && a.title == b.title && a.description == b.description
    && a.category == b.category && a.garmentType == b.garmentType && a.size == b.size
    && a.condition == b.condition && a.tags == b.tags && a.images == b.images
    && a.points == b.points && a.createdAt == b.createdAt
  }

  predicate SameApproval(a: Item, b: Item) {
    a.approvedBy == b.approvedBy && a.approvedAt == b.approvedAt
  }

  predicate SameRejection(a: Item, b: Item) {
    a.rejectedBy == b.rejectedBy && a.rejectedAt == b.rejectedAt
  }

  predicate SameRedemption(a: Item, b: Item) {
    a.redeemedBy == b.redeemedBy && a.redeemedAt == b.redeemedAt
  }

  /** `m2` agrees with `m1` on every key but `k`, and has the same keys. */
  predicate OnlyChanged<K, V(==)>(m1: map<K, V>, m2: map<K, V>, k: K) {
    m1.Keys == m2.Keys && forall j :: j in m1 && j != k ==> m2[j] == m1[j]
  }
}

=== FILE: numbers.dfy ===
/**
 * The two readings of a number field's text: the browser's, which decides whether a
 * `type="number"` input is valid and what value its `min`, `max` and `step` checks
 * see, and JavaScript's `parseInt`, which the page stores.
 */
module Numbers {
  import opened Wrappers
  import opened Text

  predicate IsDigit(c: char) {
    '0' <= c <= '9'
  }

  predicate AllDigits(s: string) {
    forall i :: 0 <= i < |s| ==> IsDigit(s[i])
  }

  /** `10^n`; it is positive, so the readings below can divide by it. */
  function Pow10(n: nat): (r: nat)
    ensures r >= 1
  {
    if n == 0 then 1 else 10 * Pow10(n - 1)
  }

  /** The value of a string of decimal digits; the empty string is 0. */
  function DigitsValue(s: string): (v: nat)
    requires AllDigits(s)
    ensures v < Pow10(|s|)
    decreases |s|
  {
    if |s| == 0 then 0
    else DigitsValue(s[..|s| - 1]) * 10 + (s[|s| - 1] as int - '0' as int)
  }

  /** The index of the first character of `s` in `marks`, or `|s|` when there is none. */
  function FindAny(s: string, marks: set<char>): (i: nat)
    ensures i <= |s|
    ensures forall j :: 0 <= j < i ==> s[j] !in marks
    ensures i < |s| ==> s[i] in marks
    decreases |s|
  {
    if |s| == 0 || s[0] in marks then 0 else 1 + FindAny(s[1..], marks)
  }

  /** The length of the run of digits `s` starts with. */
  function DigitRun(s: string): (n: nat)
    ensures n <= |s| && AllDigits(s[..n])
    ensures n < |s| ==> !IsDigit(s[n])
    decreases |s|
  {
    if |s| == 0 || !IsDigit(s[0]) then 0
    else
      var n := 1 + DigitRun(s[1..]);
      assert forall i :: 1 <= i < n ==> s[..n][i] == s[1..][..n - 1][i - 1];
      n
  }

  /** `10^k`, for a negative `k` too. */
  function Scale(k: int): (r: real)
    ensures r > 0.0
    ensures k >= 0 ==> r == Pow10(k) as real
  {
    if k >= 0 then Pow10(k) as real else 1.0 / (Pow10(-k) as real)
  }

  /** The part before the exponent: digits, a `.` and digits, or both. */
  function ReadMantissa(m: string): (r: Option<real>)
    ensures r.Some? ==> |m| > 0 && (IsDigit(m[0]) || m[0] == '.')
  {
    var dot := FindAny(m, {'.'});
    var whole := m[..dot];
    var fraction := if dot < |m| then m[dot + 1..] else "";
    if && AllDigits(whole) && AllDigits(fraction)
       && (if dot < |m| then |fraction| > 0 else |whole| > 0)
    then
      assert |whole| > 0 ==> m[0] == whole[0];
      var value := DigitsValue(whole) as real;
      Some(if |fraction| == 0 then value else value + DigitsValue(fraction) as real / Pow10(|fraction|) as real)
    else
      None
  }

  /** The part after `e` or `E`: an optional sign and at least one digit. */
  function ReadExponent(x: string): (r: Option<int>)
    ensures r.Some? ==> |x| > 0
  {
    var negative := |x| > 0 && x[0] == '-';
    var digits := if |x| > 0 && x[0] in {'-', '+'} then x[1..] else x;
    if |digits| > 0 && AllDigits(digits) then
      var v: int := DigitsValue(digits);
      Some(if negative then -v else v)
    else
      None
  }

  /** A number without its sign: a mantissa, then optionally `e` or `E` and an exponent. */
  function ReadUnsigned(body: string): (r: Option<real>)
    ensures r.Some? ==> |body| > 0 && (IsDigit(body[0]) || body[0] == '.')
  {
    var e := FindAny(body, {'e', 'E'});
    var mantissa := ReadMantissa(body[..e]);
    var exponent := if e < |body| then ReadExponent(body[e + 1..]) else Some(0);
    if mantissa.Some? && exponent.Some? then
      assert body[0] == body[..e][0];
      Some(if exponent.value == 0 then mantissa.value else mantissa.value * Scale(exponent.value))
    else
      None
  }

  /**
   * The browser's reading of a number field: the value of `s` when it is a valid
   * floating-point number in the sense of the HTML standard, an optional `-`, then
   * digits, a `.` and digits, or both, then optionally `e` or `E`, an optional sign
   * and digits. Any other text makes the field's value empty.
   */
  function ReadNumber(s: string): (r: Option<real>)
    ensures r.Some? ==> |s| > 0 && (IsDigit(s[0]) || s[0] == '-' || s[0] == '.')
  {
    if |s| > 0 && s[0] == '-' then
      match ReadUnsigned(s[1..])
      case Some(v) => Some(-v)
      case None => None
    else
      ReadUnsigned(s)
  }

  /**
   * JavaScript's `parseInt(s)`: leading white space is skipped, then an optional sign,
   * then the longest run of decimal digits is read and the rest ignored; no digit at
   * all gives `NaN`, here `None`.
   */
  function ParseInt(s: string): (r: Option<int>)
    ensures r.Some? ==> |s| > 0
    decreases |s|
  {
    if |s| > 0 && IsSpace(s[0]) then ParseInt(s[1..]) else ParseSigned(s)
  }

  /** `parseInt` once the white space is skipped: a sign, then the digit run. */
  function ParseSigned(t: string): (r: Option<int>)
    ensures r.Some? ==> |t| > 0
  {
    var negative := |t| > 0 && t[0] == '-';
    var unsigned := if |t| > 0 && t[0] in {'-', '+'} then t[1..] else t;
    var n := DigitRun(unsigned);
    if n == 0 then None
    else
      var v: int := DigitsValue(unsigned[..n]);
      Some(if negative then -v else v)
  }

  /** A digit string has no exponent marker. */
  lemma NoExponentMark(s: string)
    requires AllDigits(s)
    ensures FindAny(s, {'e', 'E'}) == |s|
  {
    var e := FindAny(s, {'e', 'E'});
    assert forall j :: 0 <= j < |s| ==> s[j] !in {'e', 'E'};
  }

  /** A mantissa without a point is its decimal value. */
  lemma ReadMantissaDigits(s: string)
    requires |s| > 0 && AllDigits(s)
    ensures ReadMantissa(s).Some? && ReadMantissa(s).value == DigitsValue(s) as real
  {
    var dot := FindAny(s, {'.'});
    assert forall j :: 0 <= j < |s| ==> s[j] !in {'.'};
    assert dot == |s| && s[..dot] == s;
    assert AllDigits("") && DigitsValue("") == 0 && Pow10(0) == 1;
  }

  /** A digit string without a sign is a mantissa with no exponent. */
  lemma ReadUnsignedDigits(s: string)
    requires |s| > 0 && AllDigits(s)
    ensures ReadUnsigned(s).Some? && ReadUnsigned(s).value == DigitsValue(s) as real
  {
    assert FindAny(s, {'e', 'E'}) == |s| by {
      NoExponentMark(s);
    }
    assert s[..|s|] == s;
    var m := ReadMantissa(s);
    assert m.Some? && m.value == DigitsValue(s) as real by {
      ReadMantissaDigits(s);
    }
    assert Scale(0) == 1.0;
  }

  /** A plain digit string reads as its decimal value. */
  lemma ReadPlainDigits(s: string)
    requires |s| > 0 && AllDigits(s)
    ensures ReadNumber(s).Some? && ReadNumber(s).value == DigitsValue(s) as real
  {
    assert s[0] != '-';
    ReadUnsignedDigits(s);
  }

  /** The digit run of `digits + rest` is `digits` when `rest` does not start with a digit. */
  lemma {:induction false} DigitRunOfPrefix(digits: string, rest: string)
    requires AllDigits(digits)
    requires |rest| == 0 || !IsDigit(rest[0])
    ensures DigitRun(digits + rest) == |digits|
    decreases |digits|
  {
    if |digits| == 0 {
      assert digits + rest == rest;
    } else {
      assert (digits + rest)[1..] == digits[1..] + rest;
      DigitRunOfPrefix(digits[1..], rest);
    }
  }

  /** `parseInt` reads the leading digits and stops at the first character that is not one. */
  lemma ParseIntStopsAtNonDigit(digits: string, rest: string)
    requires |digits| > 0 && AllDigits(digits)
    requires |rest| == 0 || !IsDigit(rest[0])
    ensures ParseInt(digits + rest).Some? && ParseInt(digits + rest).value == DigitsValue(digits)
  {
    var s := digits + rest;
    assert s[0] == digits[0] && IsDigit(s[0]);
    assert s[0] !in {'-', '+'};
    DigitRunOfPrefix(digits, rest);
    assert s[..|digits|] == digits;
  }

  /** Text that does not start with white space goes straight to the sign and digits. */
  lemma NothingToSkip(t: string)
    requires |t| > 0 && !IsSpace(t[0])
    ensures ParseInt(t) == ParseSigned(t)
  {
  }

  /** After a sign, `parseInt` reads the digits that follow it. */
  lemma ParseSignedDigits(t: string, digits: string, rest: string)
    requires |t| > 0 && t[0] in {'-', '+'} && t[1..] == digits + rest
    requires |digits| > 0 && AllDigits(digits)
    requires |rest| == 0 || !IsDigit(rest[0])
    ensures ParseSigned(t).Some?
    ensures ParseSigned(t).value == if t[0] == '-' then -(DigitsValue(digits) as int) else DigitsValue(digits)
  {
    DigitRunOfPrefix(digits, rest);
    assert t[1..][..|digits|] == digits;
  }

  /** Dropping the first character of `[c] + digits + rest` leaves `digits + rest`. */
  lemma AfterFirst(c: char, digits: string, rest: string)
    ensures ([c] + digits + rest)[1..] == digits + rest
  {
    var t := [c] + digits + rest;
    var u := digits + rest;
    assert |t[1..]| == |u|;
    forall i | 0 <= i < |u|
      ensures t[1..][i] == u[i]
    {
      if i < |digits| {
        assert t[1..][i] == digits[i];
      } else {
        assert t[1..][i] == rest[i - |digits|];
      }
    }
  }

  /** Text that starts with something other than white space, a sign or a digit reads as `NaN`. */
  lemma NoDigitIsNaN(t: string)
    requires |t| > 0 && !IsSpace(t[0]) && t[0] !in {'-', '+'} && !IsDigit(t[0])
    ensures ParseInt(t).None?
  {
    NothingToSkip(t);
    assert DigitRun(t) == 0;
  }

  /** A sign before the digits: `parseInt` reads them, negated for a minus sign. */
  lemma ParseIntSigned(t: string, digits: string, rest: string)
    requires |t| > 0 && t[0] in {'-', '+'} && t[1..] == digits + rest
    requires |digits| > 0 && AllDigits(digits)
    requires |rest| == 0 || !IsDigit(rest[0])
    ensures ParseInt(t).Some?
    ensures ParseInt(t).value == if t[0] == '-' then -(DigitsValue(digits) as int) else DigitsValue(digits)
  {
    ParseSignedDigits(t, digits, rest);
    NothingToSkip(t);
  }

  /** A minus sign before the digits negates what `parseInt` reads. */
  lemma ParseIntNegative(digits: string, rest: string)
    requires |digits| > 0 && AllDigits(digits)
    requires |rest| == 0 || !IsDigit(rest[0])
    ensures ParseInt("-" + digits + rest).Some? && ParseInt("-" + digits + rest).value == -(DigitsValue(digits) as int)
  {
    var t := "-" + digits + rest;
    AfterFirst('-', digits, rest);
    ParseIntSigned(t, digits, rest);
  }

  /** A plus sign before the digits changes nothing. */
  lemma ParseIntPlus(digits: string, rest: string)
    requires |digits| > 0 && AllDigits(digits)
    requires |rest| == 0 || !IsDigit(rest[0])
    ensures ParseInt("+" + digits + rest).Some? && ParseInt("+" + digits + rest).value == DigitsValue(digits)
  {
    var t := "+" + digits + rest;
    AfterFirst('+', digits, rest);
    ParseIntSigned(t, digits, rest);
  }

  /** `parseInt` skips any amount of leading white space. */
  lemma {:induction false} ParseIntSkipsSpace(spaces: string, s: string)
    requires forall i :: 0 <= i < |spaces| ==> IsSpace(spaces[i])
    ensures ParseInt(spaces + s) == ParseInt(s)
    decreases |spaces|
  {
    if |spaces| == 0 {
      assert spaces + s == s;
    } else {
      assert (spaces + s)[0] == spaces[0];
      assert (spaces + s)[1..] == spaces[1..] + s;
      ParseIntSkipsSpace(spaces[1..], s);
    }
  }

  /** On plain digit strings the two readings agree. */
  lemma ReadingsAgreeOnDigits(s: string)
    requires |s| > 0 && AllDigits(s)
    ensures ParseInt(s).Some? && ParseInt(s).value == DigitsValue(s)
    ensures ReadNumber(s).Some? && ReadNumber(s).value == ParseInt(s).value as real
  {
    ReadPlainDigits(s);
    ParseIntStopsAtNonDigit(s, "");
    assert s + "" == s;
  }

  /**
   * The readings part on exponent notation: the browser reads "1e2" as 100, while
   * `parseInt` stops at the `e` and reads 1.
   */
  lemma ExponentReadings()
    ensures ReadNumber("1e2").Some? && ReadNumber("1e2").value == 100.0
    ensures ParseInt("1e2").Some? && ParseInt("1e2").value == 1
  {
    ReadOneEtwo();
    ParseIntStopsAtNonDigit("1", "e2");
    assert "1" + "e2" == "1e2";
  }

  /** Without its sign, "1e2" is 1 times `10^2`. */
  lemma ReadOneEtwo()
    ensures ReadUnsigned("1e2").Some? && ReadUnsigned("1e2").value == 100.0
  {
    var s := "1e2";
    assert FindAny(s, {'e', 'E'}) == 1;
    assert s[..1] == "1" && s[2..] == "2";
    assert ReadMantissa("1").Some? && ReadMantissa("1").value == 1.0 by {
      ReadMantissaDigits("1");
    }
    assert ReadExponent("2").Some? && ReadExponent("2").value == 2;
    assert Scale(2) == 100.0;
  }

  /** The browser reads ".1e3" as 100; `parseInt` finds no digit before the `.`. */
  lemma FractionReadings()
    ensures ReadNumber(".1e3").Some? && ReadNumber(".1e3").value == 100.0
    ensures ParseInt(".1e3").None?
  {
    ReadPointOneEthree();
    NoDigitIsNaN(".1e3");
  }

  /** Without its sign, ".1e3" is 0.1 times `10^3`. */
  lemma ReadPointOneEthree()
    ensures ReadUnsigned(".1e3").Some? && ReadUnsigned(".1e3").value == 100.0
  {
    var s := ".1e3";
    assert FindAny(s, {'e', 'E'}) == 2;
    assert s[..2] == ".1" && s[3..] == "3";
    ReadPointOne();
    assert ReadExponent("3").Some? && ReadExponent("3").value == 3;
    assert Scale(3) == 1000.0;
  }

  /** The mantissa ".1" is one tenth. */
  lemma ReadPointOne()
    ensures ReadMantissa(".1").Some? && ReadMantissa(".1").value == 0.1
  {
    assert FindAny(".1", {'.'}) == 0;
    assert ".1"[..0] == "" && ".1"[1..] == "1";
    assert DigitsValue("1") == 1 && DigitsValue("") == 0;
  }
}

=== FILE: product_card.dfy ===
/** The "New" badge of a product card. Times are integer milliseconds. */
module ProductCard {
  import opened Wrappers

  const DAY_MS: int := 1000 * 60 * 60 * 24
  const WEEK_MS: int := 7 * DAY_MS

  /**
   * The `createdAt` an item card receives: a Firestore timestamp (an object, so
   * always truthy) or a plain millisecond count (falsy when it is 0).
   */
  datatype CreatedAt = Timestamp(ms: int) | Millis(ms: int)

  /** The value `createdAt` denotes after `toDate()` or `new Date(...)`. */
  function InstantOf(c: CreatedAt): int {
    match c
    case Timestamp(ms) => ms
    case Millis(ms) => ms
  }

  /**
   * `isNew`: a falsy `createdAt` is never new; otherwise the age in days, as a real
   * number, must be below 7.
   */
  function IsNew(createdAt: Option<CreatedAt>, now: int): (r: bool)
    ensures createdAt.None? ==> !r
    ensures createdAt == Some(Millis(0)) ==> !r
    ensures createdAt.Some? && createdAt != Some(Millis(0)) ==>
      (r <==> now - InstantOf(createdAt.value) < WEEK_MS)
  {
    match createdAt
    case None => false
    case Some(Millis(0)) => false
    case Some(c) => ((now - InstantOf(c)) as real) / (DAY_MS as real) < 7.0
  }

  /** Exactly seven days old is no longer new: the comparison is strict. */
  lemma ExactlyAWeekIsNotNew(created: int, now: int)
    requires now - created == WEEK_MS
    ensures !IsNew(Some(Timestamp(created)), now)
  {
  }

  /** A creation time in the future counts as new. */
  lemma FutureIsNew(created: int, now: int)
    requires created > now
    ensures IsNew(Some(Timestamp(created)), now)
  {
  }

  /** For a fixed clock, anything created after a new item is new too. */
  lemma NewnessMonotone(older: int, newer: int, now: int)
    requires older <= newer && IsNew(Some(Timestamp(older)), now)
    ensures IsNew(Some(Timestamp(newer)), now)
  {
  }
}

=== FILE: seqs.dfy ===
/**
 * Order-preserving filtering and counting over sequences (JavaScript's `filter(...)`
 * and `filter(...).length`), and sorting by a comparator (`sort(...)`, or a query's
 * `orderBy`).
 */
module Seqs {

  /** The elements of `s` that satisfy `p`, in their original order. */
  function Filter<T(!new)>(s: seq<T>, p: T -> bool): (r: seq<T>)
    ensures |r| <= |s|
    ensures forall x :: x in r ==> p(x)
    ensures forall x :: multiset(r)[x] == if p(x) then multiset(s)[x] else 0
    decreases |s|
  {
    if |s| == 0 then []
    else
      assert s == [s[0]] + s[1..];
      (if p(s[0]) then [s[0]] else []) + Filter(s[1..], p)
  }

  /** How many elements of `s` satisfy `p`. */
  function Count<T(!new)>(s: seq<T>, p: T -> bool): (n: nat)
    ensures n <= |s|
    ensures n == |Filter(s, p)|
    ensures n == 0 <==> forall i :: 0 <= i < |s| ==> !p(s[i])
    decreases |s|
  {
    if |s| == 0 then 0
    else (if p(s[0]) then 1 else 0) + Count(s[1..], p)
  }

  /** Two predicates that never hold together count at most the whole sequence between them. */
  lemma {:induction false} CountDisjoint<T(!new)>(s: seq<T>, p: T -> bool, q: T -> bool)
    requires forall x :: !(p(x) && q(x))
    ensures Count(s, p) + Count(s, q) <= |s|
    decreases |s|
  {
    if |s| > 0 {
      CountDisjoint(s[1..], p, q);
    }
  }

  /** Filtering distributes over concatenation. */
  lemma {:induction false} FilterAppend<T(!new)>(s: seq<T>, t: seq<T>, p: T -> bool)
    ensures Filter(s + t, p) == Filter(s, p) + Filter(t, p)
    decreases |s|
  {
    if |s| == 0 {
      assert s + t == t;
    } else {
      assert (s + t)[1..] == s[1..] + t;
      FilterAppend(s[1..], t, p);
    }
  }

  /** Counting distributes over concatenation. */
  lemma {:induction false} CountAppend<T(!new)>(s: seq<T>, t: seq<T>, p: T -> bool)
    ensures Count(s + t, p) == Count(s, p) + Count(t, p)
    decreases |s|
  {
    if |s| == 0 {
      assert s + t == t;
    } else {
      assert (s + t)[1..] == s[1..] + t;
      CountAppend(s[1..], t, p);
    }
  }

  /** Counting depends only on which elements occur how often, not on their order. */
  lemma CountPermutation<T(!new)>(s: seq<T>, t: seq<T>, p: T -> bool)
    requires multiset(s) == multiset(t)
    ensures Count(s, p) == Count(t, p)
  {
    var fs, ft := Filter(s, p), Filter(t, p);
    assert forall x :: multiset(fs)[x] == multiset(ft)[x];
    assert multiset(fs) == multiset(ft);
    assert |fs| == |multiset(fs)| && |ft| == |multiset(ft)|;
  }

  /** `before(a, b)` says `a` may come first: the comparator of `a` and `b` is not positive. */
  ghost predicate Total<T(!new)>(before: (T, T) -> bool) {
    forall a, b :: before(a, b) || before(b, a)
  }

  ghost predicate Transitive<T(!new)>(before: (T, T) -> bool) {
    forall a, b, c :: before(a, b) && before(b, c) ==> before(a, c)
  }

  /** Every element may come before every later one. */
  predicate Ordered<T>(s: seq<T>, before: (T, T) -> bool) {
    forall i, j :: 0 <= i < j < |s| ==> before(s[i], s[j])
  }

  lemma InsertFrontOrdered<T(!new)>(x: T, s: seq<T>, before: (T, T) -> bool)
    requires Transitive(before)
    requires Ordered(s, before) && |s| > 0 && before(x, s[0])
    ensures Ordered([x] + s, before)
  {
    forall j | 0 < j < |s|
      ensures before(x, s[j])
    {
      assert before(s[0], s[j]);
    }
  }

  lemma InsertBehindOrdered<T(!new)>(x: T, s: seq<T>, rest: seq<T>, before: (T, T) -> bool)
    requires Total(before)
    requires Ordered(s, before) && |s| > 0 && !before(x, s[0])
    requires Ordered(rest, before) && multiset(rest) == multiset(s[1..]) + multiset{x}
    ensures Ordered([s[0]] + rest, before)
  {
    forall j | 0 <= j < |rest|
      ensures before(s[0], rest[j])
    {
      assert rest[j] in multiset(rest);
      if rest[j] == x {
        assert before(x, s[0]) || before(s[0], x);
      } else {
        assert rest[j] in multiset(s[1..]);
        var k :| 0 <= k < |s[1..]| && s[1..][k] == rest[j];
        assert s[k + 1] == rest[j];
      }
    }
  }

  /** Inserts `x` before the first element it may precede. */
  function Insert<T(!new)>(x: T, s: seq<T>, before: (T, T) -> bool): (r: seq<T>)
    requires Total(before) && Transitive(before) && Ordered(s, before)
    ensures |r| == |s| + 1
    ensures multiset(r) == multiset(s) + multiset{x}
    ensures Ordered(r, before)
    decreases |s|
  {
    if |s| == 0 then [x]
    else if before(x, s[0]) then
      InsertFrontOrdered(x, s, before);
      [x] + s
    else
      var rest := Insert(x, s[1..], before);
      assert s == [s[0]] + s[1..];
      InsertBehindOrdered(x, s, rest, before);
      [s[0]] + rest
  }

  /** Sorting by a total, transitive comparator: an ordered permutation of the input. */
  function Sort<T(!new)>(s: seq<T>, before: (T, T) -> bool): (r: seq<T>)
    requires Total(before) && Transitive(before)
    ensures |r| == |s|
    ensures multiset(r) == multiset(s)
    ensures Ordered(r, before)
    decreases |s|
  {
    if |s| == 0 then []
    else
      assert s == [s[0]] + s[1..];
      Insert(s[0], Sort(s[1..], before), before)
  }
}

=== FILE: text.dfy ===
/**
 * The string operations the pages use: `split(",")`, `trim()`, ASCII `toLowerCase()`,
 * `includes(...)`, and a code-point ordering standing in for `localeCompare`.
 */
module Text {

  /** The characters JavaScript's `trim()` removes: WhiteSpace and LineTerminator of ECMA-262. */
  predicate IsSpace(c: char) {
    c == ' ' || c == '\t' || c == '\n' || c == '\r' || c == '\U{000B}' || c == '\U{000C}' ||
    c == '\U{00A0}' || c == '\U{1680}' || ('\U{2000}' <= c <= '\U{200A}') ||
    c == '\U{2028}' || c == '\U{2029}' || c == '\U{202F}' || c == '\U{205F}' ||
    c == '\U{3000}' || c == '\U{FEFF}'
  }

  /** `s` with its leading white space removed. */
  function TrimStart(s: string): (r: string)
    ensures |r| <= |s| && r == s[|s| - |r|..]
    ensures forall i :: 0 <= i < |s| - |r| ==> IsSpace(s[i])
    ensures r != [] ==> !IsSpace(r[0])
    decreases |s|
  {
    if |s| > 0 && IsSpace(s[0]) then TrimStart(s[1..]) else s
  }

  /** `s` with its trailing white space removed. */
  function TrimEnd(s: string): (r: string)
    ensures |r| <= |s| && r == s[..|r|]
    ensures forall i :: |r| <= i < |s| ==> IsSpace(s[i])
    ensures r != [] ==> !IsSpace(r[|r| - 1])
    decreases |s|
  {
    if |s| > 0 && IsSpace(s[|s| - 1]) then TrimEnd(s[..|s| - 1]) else s
  }

  /** How many white-space characters `trim()` removes from the front of `s`. */
  function LeadingSpaces(s: string): (n: nat)
    ensures n <= |s|
    ensures forall i :: 0 <= i < n ==> IsSpace(s[i])
    ensures n < |s| ==> !IsSpace(s[n])
  {
    |s| - |TrimStart(s)|
  }

  /**
   * A prefix `r` of a suffix `t` of `s` is the slice of `s` that starts where `t` does,
   * and what `r` leaves of `t` is the end of `s`.
   */
  lemma PrefixOfSuffix(s: string, t: string, r: string)
    requires |t| <= |s| && t == s[|s| - |t|..]
    requires |r| <= |t| && r == t[..|r|]
    ensures var k := |s| - |t|;
      && s[k..k + |r|] == r
      && forall i :: k + |r| <= i < |s| ==> s[i] == t[i - k]
  {
    var k := |s| - |t|;
    forall i | 0 <= i < |r|
      ensures s[k..k + |r|][i] == r[i]
    {
      assert r[i] == t[i] == s[k + i];
    }
  }

  /**
   * JavaScript's `s.trim()`: the contiguous piece of `s` that starts after the
   * leading white space and ends before the trailing white space.
   */
  function Trim(s: string): (r: string)
    ensures LeadingSpaces(s) + |r| <= |s|
    ensures s[LeadingSpaces(s)..LeadingSpaces(s) + |r|] == r
    ensures forall i :: 0 <= i < LeadingSpaces(s) ==> IsSpace(s[i])
    ensures forall i :: LeadingSpaces(s) + |r| <= i < |s| ==> IsSpace(s[i])
    ensures r != [] ==> !IsSpace(r[0]) && !IsSpace(r[|r| - 1])
  {
    var t := TrimStart(s);
    var r := TrimEnd(t);
    PrefixOfSuffix(s, t, r);
    assert r != [] ==> r[0] == t[0];
    r
  }

  /** Trimming only removes characters: one absent from `s` is absent from `Trim(s)`. */
  lemma TrimAvoids(s: string, c: char)
    requires c !in s
    ensures c !in Trim(s)
  {
    var t := Trim(s);
    var k := LeadingSpaces(s);
    forall i | 0 <= i < |t|
      ensures t[i] != c
    {
      assert t[i] == s[k + i];
    }
  }

  /** JavaScript's `s.split(sep)` for a one-character separator; it always yields at least one piece. */
  function Split(s: string, sep: char): (r: seq<string>)
    ensures |r| >= 1
    ensures forall i :: 0 <= i < |r| ==> sep !in r[i]
    decreases |s|
  {
    if |s| == 0 then [""]
    else
      var rest := Split(s[1..], sep);
      if s[0] == sep then [""] + rest
      else [[s[0]] + rest[0]] + rest[1..]
  }

  /** JavaScript's `parts.join(sep)`, the inverse of `Split`. */
  function Join(parts: seq<string>, sep: char): string
    decreases |parts|
  {
    if |parts| == 0 then ""
    else if |parts| == 1 then parts[0]
    else parts[0] + [sep] + Join(parts[1..], sep)
  }

  /** Splitting loses nothing: joining the pieces back gives the original string. */
  lemma {:induction false} JoinSplit(s: string, sep: char)
    ensures Join(Split(s, sep), sep) == s
    decreases |s|
  {
    if |s| > 0 {
      var rest := Split(s[1..], sep);
      JoinSplit(s[1..], sep);
      if s[0] == sep {
        assert Split(s, sep) == [""] + rest;
        assert ([""] + rest)[1..] == rest;
      } else {
        assert s == [s[0]] + s[1..];
        if |rest| > 1 {
          assert ([[s[0]] + rest[0]] + rest[1..])[1..] == rest[1..];
        }
      }
    }
  }

  /** A separator splits the string into the pieces of each side. */
  lemma {:induction false} SplitConcat(a: string, b: string, sep: char)
    ensures Split(a + [sep] + b, sep) == Split(a, sep) + Split(b, sep)
    decreases |a|
  {
    if |a| == 0 {
      assert a + [sep] + b == [sep] + b;
      assert ([sep] + b)[1..] == b;
    } else {
      assert (a + [sep] + b)[1..] == a[1..] + [sep] + b;
      SplitConcat(a[1..], b, sep);
    }
  }

  /** A string without the separator is a single piece. */
  lemma {:induction false} SplitNoSeparator(s: string, sep: char)
    requires sep !in s
    ensures Split(s, sep) == [s]
    decreases |s|
  {
    if |s| > 0 {
      assert sep !in s[1..];
      SplitNoSeparator(s[1..], sep);
      assert s == [s[0]] + s[1..];
    }
  }

  /** ASCII upper case to lower case; other characters are kept. */
  function LowerChar(c: char): char {
    if 'A' <= c <= 'Z' then (c as int - 'A' as int + 'a' as int) as char else c
  }

  /** `s.toLowerCase()` over the ASCII letters. */
  function Lower(s: string): (r: string)
    ensures |r| == |s|
    ensures forall i :: 0 <= i < |s| ==> r[i] == LowerChar(s[i])
  {
    seq(|s|, i requires 0 <= i < |s| => LowerChar(s[i]))
  }

  /** `needle` occurs at the start of `hay`. */
  predicate StartsWith(hay: string, needle: string) {
    |needle| <= |hay| && hay[..|needle|] == needle
  }

  /** JavaScript's `hay.includes(needle)`. */
  predicate Contains(hay: string, needle: string)
    decreases |hay|
  {
    StartsWith(hay, needle) || (|hay| > 0 && Contains(hay[1..], needle))
  }

  /** When `Contains` holds, `needle` occurs at some position of `hay`. */
  lemma {:induction false} ContainsHasPosition(hay: string, needle: string)
    requires Contains(hay, needle)
    ensures exists i :: 0 <= i <= |hay| - |needle| && StartsWith(hay[i..], needle)
    decreases |hay|
  {
    if StartsWith(hay, needle) {
      assert hay[0..] == hay;
    } else {
      ContainsHasPosition(hay[1..], needle);
      var i :| 0 <= i <= |hay[1..]| - |needle| && StartsWith(hay[1..][i..], needle);
      assert hay[1..][i..] == hay[i + 1..];
    }
  }

  /** An occurrence of `needle` at position `i` of `hay` makes `Contains` hold. */
  lemma {:induction false} PositionGivesContains(hay: string, needle: string, i: nat)
    requires i <= |hay| - |needle| && StartsWith(hay[i..], needle)
    ensures Contains(hay, needle)
    decreases i
  {
    if i == 0 {
      assert hay[0..] == hay;
    } else {
      assert hay[1..][i - 1..] == hay[i..];
      PositionGivesContains(hay[1..], needle, i - 1);
    }
  }

  /** `Contains` holds exactly when `needle` occurs at some position of `hay`. */
  lemma ContainsAt(hay: string, needle: string)
    ensures Contains(hay, needle) <==> exists i :: 0 <= i <= |hay| - |needle| && StartsWith(hay[i..], needle)
  {
    if Contains(hay, needle) {
      ContainsHasPosition(hay, needle);
    }
    if exists i :: 0 <= i <= |hay| - |needle| && StartsWith(hay[i..], needle) {
      var i :| 0 <= i <= |hay| - |needle| && StartsWith(hay[i..], needle);
      PositionGivesContains(hay, needle, i);
    }
  }

  /** Lexicographic order on code points: `a` sorts no later than `b`. */
  predicate LexLeq(a: string, b: string)
    decreases |a|
  {
    |a| == 0 || (|b| > 0 && (a[0] < b[0] || (a[0] == b[0] && LexLeq(a[1..], b[1..]))))
  }

  lemma {:induction false} LexLeqTotal(a: string, b: string)
    ensures LexLeq(a, b) || LexLeq(b, a)
    decreases |a|
  {
    if |a| > 0 && |b| > 0 && a[0] == b[0] {
      LexLeqTotal(a[1..], b[1..]);
    }
  }

  lemma {:induction false} LexLeqTrans(a: string, b: string, c: string)
    requires LexLeq(a, b) && LexLeq(b, c)
    ensures LexLeq(a, c)
    decreases |a|
  {
    if |a| > 0 && a[0] == b[0] && b[0] == c[0] {
      LexLeqTrans(a[1..], b[1..], c[1..]);
    }
  }
}

=== FILE: wrappers.dfy ===
/** Optional values, standing for JavaScript's `undefined`/`null` where the source reads a field that may be absent. */
module Wrappers {

  datatype Option<+T> = None | Some(value: T) {

    /** The wrapped value, or `default` when there is none (JavaScript's `x ?? default`). */
    function GetOr(default: T): T {
      match this
      case Some(v) => v
      case None => default
    }
  }
}
